=== FILE: README.md ===
# Attendance aggregation and field-trip lifecycle — a Dafny model

This project models the policy core of an attendance service for project staff:

- the field-trip lifecycle (replacing an employee's active trips, on-trip
  location, expiry of overdue trips, soft delete and partial update by key, the
  list of trips active on a date) and the job that marks staff on a trip present;
- the working-day count of a month from the calendar table, present and absent
  days, and the HR side of the monthly request/submit exchange with PIs
  (requests, per-PI status, the combined report, the presence view and report
  of a PI's staff);
- the monthly statistics behind the PI views (full, half and not-checked-out
  counts and the two total-day policies), the PI's notifications and the
  submission of a month's snapshot to HR;
- the 23:00 job that classifies today's check-ins without a check-out as full days.

Everything is a pure function over an abstract store. Dates are integer day
numbers; "today" and "now" are parameters. The trip table is a sequence whose
positions are the trip keys (trips are never removed, only deactivated). The
attendance store is a map keyed by (employee, day). The HR/PI workflow state is
two maps, PI to period key to request, and PI to period key to the submitted
list, as the code uses them (it stores and measures a list, not the object type
it declares). A missing text parameter is the empty string; a missing list,
number or description is `None`.

Modules, one per concern: `Outcomes` (option/result), `Text` (JavaScript
`split`, text order), `Dates` (civil dates, `new Date(y, m - 1, 1)` and
`new Date(y, m, 0)`), `Calendar` (working days), `Attendance`, `Statistics`,
`Roster` (users, PIs, project filter), `FieldTrips`, `FieldTripAttendance`,
`DayCompletion`, `Workflow` (the shared request/submission state), `HrController`,
`PiController`, `WorkflowRun` (the exchange end to end).

Behaviour of the code that a reader might not expect, modelled as the code has it:

- A submission without a matching request is answered "not found" (HTTP 404),
  not "conflict".
- The single-sign-on view uses the integer total and the token view the
  half-weighted total (`src/controllers/pi.controller.ts`).
- The integer total is `full + half + notCheckedOut`, so a FULL_DAY row
  without a check-out (what the 23:00 job leaves behind) counts twice, not once
  (`Statistics.AutoCompletedCountTwice`).
- The 23:00 job never writes a check-out, so a second run selects the same rows
  again; it changes nothing, but it reports the same count
  (`DayCompletion.CompletionIdempotent`).
- The status values are `complete`, `pending`, `requested` and `none`; there is
  no `submitted` value. A stored submission wins over a newer request
  (`WorkflowRun.ReRequestShowsSubmission`).
- Working days are not clamped and can be negative when the calendar holds
  duplicate rows (`Calendar.WorkingDaysCanBeNegative`).

## Model

| member | source | states |
|---|---|---|
| Dates.DaysInMonth | src/controllers/hr.controller.ts:14 | A month has 28 to 31 days; February has 29 exactly in Gregorian leap years; April, June, September and November have 30. |
| Dates.StartOfMonth | src/controllers/hr.controller.ts:124 | `new Date(y, m - 1, 1)` is a valid date on the first of a month, and that month is month m counted from January of year y (0..99 read as 1900..1999): 12 × its year + its month equals 12 × y + m, so a month outside 1..12 carries into the year. |
| Dates.EndOfMonth | src/controllers/hr.controller.ts:126 | `new Date(y, m, 0)` is a valid date in month m counted from January of year y (12 × its year + its month equals 12 × y + m, month overflow carried into the year), and its day is that month's length: day 0 of month index m is the last day of the month before it. |
| Dates.MonthRange | src/controllers/hr.controller.ts:124-130 | The two dates fall in the same month, the end's day of month is that month's length, and the range holds exactly that many days. |
| Dates.YearLength | src/controllers/hr.controller.ts:124-126 | The day numbering gives 366 days to leap years and 365 to others. |
| Dates.MonthsAreContiguous | src/controllers/hr.controller.ts:124-126 | The day after a month's last day is the next month's first day, so consecutive month ranges tile the day line. |
| Calendar.CountOff | src/controllers/hr.controller.ts:17-28 | The holiday-or-weekend rows within the range number at most the rows of the calendar. |
| Calendar.CountOffIsRowCount | src/controllers/hr.controller.ts:17-28 | The count equals the number of calendar rows in the range flagged holiday or weekend; a row with both flags is one row. |
| Calendar.CountOffDistinct | src/controllers/hr.controller.ts:17-28 | With at most one row per date, the count is the number of distinct off dates in the range. |
| Calendar.CalculateWorkingDays | src/controllers/hr.controller.ts:12-31 | Working days are at most the end's day of month and at least that minus the calendar's size. |
| Calendar.MonthWorkingDays | src/controllers/hr.controller.ts:124-130 | A month's working days are at most the month's last day number, and equal it when the calendar is empty. |
| Calendar.WorkingDaysBounds | src/controllers/hr.controller.ts:31 | A month's working days never exceed its length, and are non-negative when the calendar has one row per date. |
| Calendar.WorkingDaysCanBeNegative | src/controllers/hr.controller.ts:31 | For every month some calendar makes the count negative: it is not clamped. |
| Calendar.AbsentDays | src/controllers/hr.controller.ts:147 | Absent days are non-negative, present plus absent covers the working days, and a positive absence makes them add up exactly. |
| Attendance.RowsBetween | src/controllers/pi.controller.ts:52-58 | The rows kept are exactly the rows dated within the range, never more than the rows given. |
| Attendance.RowsBetweenCounts | src/controllers/pi.controller.ts:52-58 | Each in-range row is kept as often as it occurs and every other row is dropped. |
| Attendance.RowsBetweenAppend | src/controllers/pi.controller.ts:52-58 | The filter keeps stored order: filtering a concatenation concatenates the filtered parts, and a single row is kept exactly when it is in range. |
| Statistics.CountWhere | src/controllers/pi.controller.ts:75-83 | A filtered count never exceeds the rows. |
| Statistics.Summarize | src/controllers/pi.controller.ts:75-83 | Full plus half days never exceed the rows, nor does the not-checked-out count. |
| Statistics.IntegerTotal | src/controllers/pi.controller.ts:84 | The integer total is zero exactly when all three counts are zero, and at least the full days. |
| Statistics.HalfWeightedTotal | src/controllers/pi.controller.ts:234 | The half-weighted total lies between 0 and the integer total, falling short of it by exactly half the half days and open rows. |
| Statistics.DisjointCounts | src/controllers/pi.controller.ts:75-80 | Two tests no row meets together count at most the rows in all. |
| Statistics.CountAppend | src/controllers/pi.controller.ts:75-83 | Counting over two row lists is the sum of the two counts. |
| Statistics.PolicyBounds | src/controllers/pi.controller.ts:234 | Both totals are 0 on no rows; the half-weighted total lies between 0 and the integer total, which is at most twice the rows. |
| Statistics.TotalsMonotone | src/controllers/pi.controller.ts:84 | Adding rows never lowers either total. |
| Statistics.AutoCompletedCountTwice | src/controllers/pi.controller.ts:353 | When every row is FULL_DAY without a check-out, the integer total is twice the rows and the half-weighted total one and a half times. |
| Statistics.AutoCompletedCounts | src/services/cronJobs.ts:33-35 | Rows left FULL_DAY without a check-out count as full days and as open rows, and none as half days. |
| Statistics.PresentDays | src/controllers/hr.controller.ts:233-236 | Present days, the distinct dates among the rows, are at most the rows. |
| Statistics.DatesBound | src/controllers/hr.controller.ts:233-236 | The distinct dates of a row list number at most its length. |
| Statistics.PresentDaysStep | src/controllers/hr.controller.ts:307-310 | A row on an already present date adds no present day; a row on a new date adds exactly one. |
| Roster.FindUser | src/controllers/userLocation.controller.ts:51-60 | A found user is in the table and matches; not found means no user matches. |
| Roster.FindPI | src/controllers/hr.controller.ts:199-206 | A found PI has the name asked for; not found means no PI has it. |
| Roster.StaffOn | src/controllers/hr.controller.ts:215-216 | The filter never yields more records than the roster has. |
| Roster.StaffOnCounts | src/controllers/hr.controller.ts:215-216 | Each record on at least one of the projects is kept as often as it occurs and every other is dropped, so a record is kept exactly when it is on the roster and on the projects. |
| Roster.StaffOnAppend | src/controllers/hr.controller.ts:215-216 | The filter keeps roster order: filtering a concatenation concatenates the filtered parts, and a single record is kept exactly when it is on the projects. |
| FieldTrips.StoredDescription | src/controllers/userLocation.controller.ts:79 | An empty or missing description is stored as null; any other is stored as given. |
| FieldTrips.Creator | src/controllers/userLocation.controller.ts:80 | The creator is the requester's username when present and non-empty, else "admin". |
| FieldTrips.DeactivateEmployee | src/controllers/userLocation.controller.ts:63-69 | Every trip of the employee becomes inactive; all other trips are unchanged. |
| FieldTrips.NewTrips | src/controllers/userLocation.controller.ts:71-85 | One active trip per entry, with its dates, stored description and creator. |
| FieldTrips.SaveFieldTrips | src/controllers/userLocation.controller.ts:29-104 | Missing employee number or a non-list is invalid input, an unknown employee is not found; on success the old trips of the employee are deactivated and one new trip per entry is appended and returned with its key. |
| FieldTrips.Replaced | src/controllers/userLocation.controller.ts:62-89 | The saved table is the old one with the employee's trips deactivated in place, followed by one new active trip per entry; each created trip is returned with its key. |
| FieldTrips.ReplaceActive | src/controllers/userLocation.controller.ts:62-89 | Deactivating an employee's trips and appending active trips of theirs leaves exactly the appended ones active for them and others' trips unchanged. |
| FieldTrips.SaveReplacesActiveSet | src/controllers/userLocation.controller.ts:62-89 | After a save the employee's active trips are exactly the new ones, as many as entries; other employees' trips are untouched. |
| FieldTrips.SaveEmptyTwice | src/controllers/userLocation.controller.ts:71-89 | Saving an empty list leaves no active trip; saving it again changes nothing. |
| FieldTrips.LocationOf | src/controllers/userLocation.controller.ts:223-234 | FIELDTRIP exactly when an active trip of the employee has start ≤ today ≤ end, end day included; otherwise CAMPUS. |
| FieldTrips.ActiveTripsOf | src/controllers/userLocation.controller.ts:204-214 | The listed trips are exactly the employee's active trips, each with its key and each key once, ordered by start date. |
| FieldTrips.UserFieldTripsByUsername | src/controllers/userLocation.controller.ts:190-253 | A missing username is invalid input and an unknown one not found; the lookup succeeds exactly when some user has that name, and then answers with that user's report. |
| FieldTrips.UserFieldTripsByEmployeeNumber | src/controllers/userLocation.controller.ts:255-318 | A missing employee number is invalid input and an unknown one not found; the lookup succeeds exactly when some user has that number, and then answers with that user's report: FIELDTRIP exactly when an active trip of theirs covers today. |
| FieldTrips.ExpireTrips | src/controllers/userLocation.controller.ts:325-346 | The table keeps its size; an active trip ending strictly before today becomes inactive, every other trip and every other field is left as it was. |
| FieldTrips.ExpiryReport | src/controllers/userLocation.controller.ts:337-356 | The report lists each overdue trip exactly once, with its employee number and end date, and lists nothing else; its order is the model's key order (the query has no `orderBy`). |
| FieldTrips.ExpireIdempotent | src/controllers/userLocation.controller.ts:328-335 | Trips ending today or later stay active, and an immediate re-run deactivates nothing and changes nothing. |
| FieldTrips.DeleteFieldTrip | src/controllers/userLocation.controller.ts:454-483 | A missing key is invalid input and an unknown key not found; it succeeds exactly for a key in the table, and then only that trip changes, to inactive, and it is kept. |
| FieldTrips.UpdateFieldTrip | src/controllers/userLocation.controller.ts:551-595 | A missing key is invalid input and an unknown key not found; it succeeds exactly for a key in the table, and then only that trip changes: dates when supplied, description whenever defined (null clears it), nothing else. |
| FieldTrips.DeleteDropsTrip | src/controllers/userLocation.controller.ts:465-468 | After a delete the employee's listing holds exactly the entries it held before except the deleted trip. |
| FieldTrips.DeleteKeepsOthers | src/controllers/userLocation.controller.ts:465-468 | A delete leaves every other employee's active trips at the same keys. |
| FieldTrips.DeleteLocation | src/controllers/userLocation.controller.ts:223-236 | After a delete the employee is on a field trip exactly when another active trip of theirs covers the day; every other employee's location is unchanged. |
| FieldTrips.UpdateKeepsActiveKeys | src/controllers/userLocation.controller.ts:563-571 | An update changes neither owner nor active flag: every employee's active trips sit at the same keys and their number is unchanged. |
| FieldTrips.TripLeTotal | src/controllers/userLocation.controller.ts:519 | Any two trips are ordered by (start date, employee number) one way or the other. |
| FieldTrips.TripLeTransitive | src/controllers/userLocation.controller.ts:519 | The (start date, employee number) order is transitive. |
| FieldTrips.InsertSorted | src/controllers/userLocation.controller.ts:519 | Inserting into an ordered list keeps it ordered. |
| FieldTrips.SortTrips | src/controllers/userLocation.controller.ts:519 | The result is a permutation of the input, ordered by (start date, employee number). |
| FieldTrips.ListingOrder | src/controllers/userLocation.controller.ts:519 | Ordering a key-ordered list keeps the same entries with the same multiplicities, each key once, ordered by (start date, employee number). |
| FieldTrips.ActiveOnTarget | src/controllers/userLocation.controller.ts:504-509 | The selection holds exactly the active trips with start ≤ target ≤ end, with their keys, in increasing key order. |
| FieldTrips.WithDaysRemaining | src/controllers/userLocation.controller.ts:531-533 | Each entry gets end − target days remaining, which is never negative for a covering trip. |
| FieldTrips.AllActiveFieldTrips | src/controllers/userLocation.controller.ts:492-540 | The listing is a permutation of the trips active on the target, ordered by (start date, employee number), each trip once with its key and non-negative days remaining. |
| FieldTripAttendance.TakenLocation | src/controllers/userLocation.controller.ts:419-420 | The label is "Field Trip - " followed by the description, or "Auto-marked" when it is empty or missing. |
| FieldTripAttendance.FieldTripRow | src/controllers/userLocation.controller.ts:398-421 | The row created is FULL_DAY, FIELDTRIP, session FN, dated today, checked in at 09:30 before a check-out at 17:30. |
| FieldTripAttendance.First | src/controllers/userLocation.controller.ts:386-397 | The position of an employee's first trip in the job's list, or -1 when there is none. |
| FieldTripAttendance.Mark | src/controllers/userLocation.controller.ts:385-438 | One result per qualifying trip, and no key of the store is lost. |
| FieldTripAttendance.MarkKeepsAndCovers | src/controllers/userLocation.controller.ts:397-437 | Existing rows are never modified, and afterwards every employee on a qualifying trip has a row for today. |
| FieldTripAttendance.MarkNewRows | src/controllers/userLocation.controller.ts:397-422 | Every new row is dated today and is the field-trip row of the employee's first trip in the job's list, so an employee with several trips gets one row. |
| FieldTripAttendance.MarkResults | src/controllers/userLocation.controller.ts:424-437 | A trip is reported `marked` exactly when its employee had no row for today and it is the employee's first trip in the list; otherwise `already_marked`. |
| FieldTripAttendance.TripsOnDay | src/controllers/userLocation.controller.ts:373-383 | The job's list has one entry per active trip covering today. |
| FieldTripAttendance.TripsOnDayExact | src/controllers/userLocation.controller.ts:373-383 | Entry i of the list is the active covering trip stored at the i-th selected key, and every active trip covering today is on the list; the list is in the model's key order (the query has no `orderBy`). |
| FieldTripAttendance.TripsOnDayMembers | src/controllers/userLocation.controller.ts:373-383 | A trip is on the list exactly when it is an active trip of the table covering today. |
| FieldTripAttendance.ProcessFieldTripAttendance | src/controllers/userLocation.controller.ts:366-452 | One result per active trip covering today; every existing attendance row is kept as it was, and afterwards every employee on such a trip has a row for today. |
| FieldTripAttendance.MarkWhenAllPresent | src/controllers/userLocation.controller.ts:431-436 | When everyone on the list already has a row for today, nothing is written and every result is `already_marked`. |
| FieldTripAttendance.ProcessIdempotent | src/controllers/userLocation.controller.ts:366-452 | A second run the same day creates nothing and reports every entry `already_marked`. |
| FieldTripAttendance.ProcessKeepsKeys | src/controllers/userLocation.controller.ts:397-422 | The store stays keyed by (employee, date), and every row the job adds is a FULL_DAY field-trip row for today with check-in before check-out. |
| DayCompletion.CompleteDay | src/services/cronJobs.ts:25-38 | The job changes rows in place; it never adds or removes a row. |
| DayCompletion.CompletionEffects | src/services/cronJobs.ts:16-43 | Selected rows (today, checked in, not checked out) become FULL_DAY with the check-out still absent; every other row is unchanged; only the classification is written; a FULL_DAY row is never downgraded; the count is the number of selected rows. |
| DayCompletion.NoHalfDayLeft | src/services/cronJobs.ts:33-35 | After a run no selected row for today is HALF_DAY or unclassified. |
| DayCompletion.CompletionIdempotent | src/services/cronJobs.ts:16-38 | A second run leaves the store unchanged; it selects the same rows and reports the same count. |
| Text.Split | src/controllers/hr.controller.ts:117 | `split` always yields at least one piece. |
| Text.SplitPair | src/controllers/pi.controller.ts:314 | Splitting `a-b` on '-' yields `a` and `b` when neither contains '-'. |
| Text.SplitTriple | src/controllers/pi.controller.ts:314 | Splitting `a-b-c` on '-' yields the three parts when none contains '-'. |
| Text.JoinSplit | src/controllers/hr.controller.ts:117 | Joining the pieces of a split with the separator gives back the original text. |
| Workflow.Register | src/controllers/hr.controller.ts:70-74 | Each listed PI gets the request for the key, overwriting an earlier one; other PIs and keys and all submissions are unchanged. |
| Workflow.Consume | src/controllers/pi.controller.ts:363-365 | The snapshot is stored for (PI, key) and that request is deleted; every other request and submission is unchanged. |
| Workflow.StatusOf | src/controllers/hr.controller.ts:91-104 | Exactly one status: a non-empty submission is `complete`, an empty one `pending`, a request alone `requested`, otherwise `none`. |
| Workflow.ParseKey | src/controllers/pi.controller.ts:312-316 | A key without '-' is read back whole as the month, with no year. |
| Workflow.ParseKeyRoundTrip | src/controllers/pi.controller.ts:312-316 | A notification recovers the month and year of its request key when neither contains '-'. |
| Workflow.ParseKeyNeedsPlainParts | src/controllers/pi.controller.ts:314 | A month containing '-' is not recovered: the key's pieces shift. |
| HrController.RequestDataFromPIs | src/controllers/hr.controller.ts:64-77 | A missing PI list, month or year is invalid input; otherwise each listed PI has a request for the key stamped now, other requests are unchanged and no submission changes. |
| HrController.SubmissionStatus | src/controllers/hr.controller.ts:79-110 | A missing month or year is invalid input; otherwise every known PI, and only those, maps to its status for the key. |
| HrController.Combined | src/controllers/hr.controller.ts:133-137 | For a single PI the combination is that PI's submission for the key, or nothing when there is none. |
| HrController.CombinedAppend | src/controllers/hr.controller.ts:133-137 | Combining two PI lists is concatenating their combinations, so submissions appear in list order. |
| HrController.CombinedMembers | src/controllers/hr.controller.ts:133-137 | An entry is combined exactly when some listed PI submitted it for the key; PIs without a submission contribute nothing. |
| HrController.DownloadReport | src/controllers/hr.controller.ts:112-155 | Missing parameters are invalid input and an empty combination not found, and those are the only failures; it succeeds exactly when the parameters are given and some listed PI submitted, and then gives one row per combined entry, with the month's working days, the submitted total as present days, and the floored absence. |
| HrController.Presence | src/controllers/hr.controller.ts:231-246 | Present days are the distinct dates of the month's rows, and absent days the floored shortfall against the working days. |
| HrController.PresenceRows | src/controllers/hr.controller.ts:295-319 | One presence row per staff member, in order. |
| HrController.PIUsersWithAttendance | src/controllers/hr.controller.ts:174-263 | A missing PI name is invalid input and an unknown PI not found; it succeeds exactly for a known PI, and then gives the query month (today's by default), its working days, and one presence row per staff member on the PI's projects with that month's rows. |
| HrController.DownloadPIReport | src/controllers/hr.controller.ts:265-319 | An unknown PI is not found, and that is the only failure. |
| HrController.ReportMatchesView | src/controllers/hr.controller.ts:295-319 | For a named PI the report and the view fail together and otherwise carry the same rows. |
| PiController.HasActiveFieldTrip | src/controllers/pi.controller.ts:63-67 | True exactly when the user has at least one active trip, whatever its dates. |
| PiController.Summary | src/controllers/pi.controller.ts:74-100 | A staff entry carries the user's identity, its projects among the requested ones, the active-trip flag, and exactly the user's rows in the month, with their counts and the policy's total of those counts. |
| PiController.UsersAttendanceSSO | src/controllers/pi.controller.ts:9-99 | A missing username or project list is invalid input, the only failure; otherwise the query month and, position by position, the summary of each staff member on the projects, with the month total full + half + not-checked-out (`Statistics.IntegerTotal`). |
| PiController.ViewProjects | src/controllers/pi.controller.ts:169 | The token's project list when present, else the one-element list of its project code, else nothing. |
| PiController.UsersAttendance | src/controllers/pi.controller.ts:157-249 | No caller is unauthorized, the only failure; otherwise the query month and, position by position, the summary of each staff member on the token's projects, with the half-weighted total. |
| PiController.ViewsAgreeButForTotal | src/controllers/pi.controller.ts:84 | The two views list the same entries but for the total; the half-weighted total never exceeds the other and equals it exactly when there are no half days and no missing check-outs. |
| PiController.SubmitProjects | src/controllers/pi.controller.ts:323 | The token's project list when present, else its project code when non-empty; the list is empty exactly when there is no list and no non-empty code. |
| PiController.Snapshot | src/controllers/pi.controller.ts:339-361 | One entry per staff member on the projects, in roster order, carrying that member's username and the month total full + half + not-checked-out (`Statistics.IntegerTotal`). |
| PiController.SnapshotMatchesView | src/controllers/pi.controller.ts:346-361 | HR receives the same people with the same totals as the single-sign-on view of that month shows; the model lists both in roster order. |
| PiController.SubmitDataToHR | src/controllers/pi.controller.ts:320-368 | No name or no projects is unauthorized; no request for the key is not found; otherwise the snapshot is stored, the request deleted, and every other request and submission kept with its contents unchanged. |
| PiController.Notifications | src/controllers/pi.controller.ts:307-318 | No caller name is unauthorized; otherwise exactly the caller's request keys, each mapped to the first two pieces of the key split on '-', so a key built from a period whose parts contain no '-' reads back as its month and year. |
| WorkflowRun.SubmitBeforeRequestFails | src/shared/state.ts:9-10 | On a fresh state every authorised submission is not found, and for any PI list the status view succeeds exactly when the period is given and then reports `none` for every PI. |
| WorkflowRun.RequestSubmitRound | src/controllers/pi.controller.ts:332-365 | After a request the PI is notified and the status is `requested`; one submission succeeds, clears the notification and makes the status `complete` or `pending`; a second is refused until HR asks again. |
| WorkflowRun.ReRequestShowsSubmission | src/controllers/hr.controller.ts:92-98 | A new request for an answered period is recorded, but the status keeps reporting the submission. |
| WorkflowRun.ReportIsSnapshot | src/controllers/hr.controller.ts:133-152 | For a single PI the downloaded report is the PI's snapshot line for line, and not found exactly when it is empty. |

## Left out

- Authentication: HR login with fixed credentials and token issuance. The token's contents are an input (`AuthUser`).
- The PI-list reconciliation script and the PI-list endpoint: a network fetch plus a database rewrite, and a sorted list of names, with no policy of their own.
- The database, its transactions and `Promise.all`. A transaction is one state transition; the stores are a sequence (trips) and maps (attendance, workflow).
- Database failures and the 500 answers: only invalid input, unauthorized and not found are modelled.
- Express request and response handling, HTTP status codes and logging.
- CSV generation, file names and `toFixed` formatting of the two reports.
- The address, photo and audio projection of attendance rows in the PI views, and the per-project department.
- Ordering by username of the staff lists and by date of attendance rows: staff appear in roster order and rows in stored order.
- Trip queries without `orderBy` (the expiry job, userLocation.controller.ts:328-336, and the attendance job, userLocation.controller.ts:374-385) return rows in an order the database chooses; the model fixes it as key order. That order decides the order of the expiry report and which of an employee's overlapping trips writes the attendance row, and so whose description becomes `takenLocation`.
- The snapshot query of a submission has no `orderBy` (pi.controller.ts:339-344), while the single-sign-on view sorts by username (pi.controller.ts:69-71); the model lists both in roster order. The snapshot's order also fixes the row order of the combined HR report.
- Text collation: the database orders text by its own collation; the model compares code points (`Text.TextLe`), so the employee-number tie-break of the active-trip listing may differ from the database's for non-ASCII or mixed-case numbers.
- FieldTripAttendance.Mark: results carry the employee number only; the username and the attendance id are not modelled.
- FieldTrips.AllActiveFieldTrips: each listed trip carries its key, trip and days remaining; the joined user's username and class (userLocation.controller.ts:525-526) are not modelled.
- Clocks and time zones: today, now and the default month are parameters, and the UTC-versus-local midnight mix collapses into one day number; the 09:30/17:30 stamps are minutes of the day.
- Parsing: date strings of trip entries, and `parseInt`/number coercion of month and year, are done by the caller; the text month and year of the workflow key and the numeric month used for date ranges are separate inputs.
- Scheduling and concurrency between the jobs and request handling.
- Floating point: the half weights are exact `real` halves.
- Days remaining: `Math.ceil` of a millisecond difference becomes a difference of day numbers.
- Notifications: the order of the request keys is not modelled (the result is a map from key to notification).
- PiController.ViewProjects: a token with neither a project list nor a project code yields `[undefined]` in the source, which matches no project; the model yields the empty list, with the same effect on the view.

=== FILE: attendance.dfy ===
/** Attendance rows: one per (employee, date). */
module Attendance {
  import opened Outcomes
  import opened Dates

  type EmployeeId = string

  /** A point in time within a day; only its order matters to the core. */
  datatype Stamp = Stamp(day: Day, minuteOfDay: int)

  /** Stamps are ordered by day, then by minute. */
  predicate Before(a: Stamp, b: Stamp) {
    a.day < b.day || (a.day == b.day && a.minuteOfDay < b.minuteOfDay)
  }

  /** Forenoon or afternoon session. */
  datatype Session = FN | AN

  /** The attendance classification. */
  datatype AttendanceType = FULL_DAY | HALF_DAY

  /** Where the attendance was taken. */
  datatype LocationType = CAMPUS | FIELDTRIP

  /** One attendance row. The classification is optional: the store schema is not
      part of this model, so a row may carry neither tag. */
  datatype Attendance = Attendance(
    employee: EmployeeId,
    date: Day,
    checkin: Option<Stamp>,
    checkout: Option<Stamp>,
    session: Session,
    kind: Option<AttendanceType>,
    location: LocationType,
    takenLocation: Option<string>)

  /** The natural key of a row. */
  datatype AttKey = AttKey(employee: EmployeeId, date: Day)

  /** The attendance table, keyed by (employee, date): at most one row per pair. */
  type AttendanceStore = map<AttKey, Attendance>

  /** Every row sits under its own key. */
  predicate WellKeyed(store: AttendanceStore) {
    forall k :: k in store ==> store[k].employee == k.employee && store[k].date == k.date
  }

  /** The rows of `rows` dated within [from, to]: the date filter of the store
      queries the views run. */
  function RowsBetween(rows: seq<Attendance>, from: Day, to: Day): (r: seq<Attendance>)
    ensures |r| <= |rows|
    ensures forall a :: a in r <==> a in rows && from <= a.date <= to
    decreases |rows|
  {
    if |rows| == 0 then []
    else
      var rest := RowsBetween(rows[..|rows| - 1], from, to);
      var last := rows[|rows| - 1];
      assert rows == rows[..|rows| - 1] + [last];
      if from <= last.date <= to then rest + [last] else rest
  }

  /** The filter keeps every in-range row as often as it occurs, and no other. */
  lemma {:induction false} RowsBetweenCounts(rows: seq<Attendance>, from: Day, to: Day)
    ensures forall a :: multiset(RowsBetween(rows, from, to))[a]
                        == if from <= a.date <= to then multiset(rows)[a] else 0
    decreases |rows|
  {
    if |rows| > 0 {
      var p, last := rows[..|rows| - 1], rows[|rows| - 1];
      assert rows == p + [last];
      RowsBetweenCounts(p, from, to);
      assert multiset(rows) == multiset(p) + multiset{last};
    }
  }

  /** The filter keeps the order of the rows: filtering a concatenation is the
      concatenation of the filtered parts, and a single row is kept exactly when
      it is in range. */
  lemma {:induction false} RowsBetweenAppend(a: seq<Attendance>, b: seq<Attendance>, from: Day, to: Day)
    ensures RowsBetween(a + b, from, to) == RowsBetween(a, from, to) + RowsBetween(b, from, to)
    ensures |b| == 1 ==> RowsBetween(b, from, to) == (if from <= b[0].date <= to then b else [])
    decreases |b|
  {
    if |b| == 0 {
      assert a + b == a;
    } else {
      var b', x := b[..|b| - 1], b[|b| - 1];
      assert (a + b)[..|a + b| - 1] == a + b';
      assert (a + b)[|a + b| - 1] == x;
      var keep := from <= x.date <= to;
      var ra, rb' := RowsBetween(a, from, to), RowsBetween(b', from, to);
      RowsBetweenAppend(a, b', from, to);
      assert RowsBetween(a + b, from, to) == if keep then RowsBetween(a + b', from, to) + [x] else RowsBetween(a + b', from, to);
      assert RowsBetween(b, from, to) == if keep then rb' + [x] else rb';
      if keep {
        assert ra + rb' + [x] == ra + (rb' + [x]);
      }
      if |b| == 1 {
        assert b' == [];
        assert RowsBetween(b', from, to) == [];
      }
    }
  }
}

=== FILE: calendar.dfy ===
/** Working days of a month, as HR computes them from the calendar table
    (`calculateWorkingDays` in the HR controller), and the absence figure derived
    from them. */
module Calendar {
  import opened Outcomes
  import opened Dates

  /** A row of the calendar table: a date with its holiday and weekend flags. */
  datatype CalendarDay = CalendarDay(date: Day, isHoliday: bool, isWeekend: bool)

  /** The row lies in [from, to] and is flagged holiday OR weekend. */
  predicate IsOff(c: CalendarDay, from: Day, to: Day) {
    from <= c.date <= to && (c.isHoliday || c.isWeekend)
  }

  /** The number of calendar rows the range query returns. */
  function CountOff(cal: seq<CalendarDay>, from: Day, to: Day): (n: nat)
    ensures n <= |cal|
    decreases |cal|
  {
    if |cal| == 0 then 0
    else CountOff(cal[..|cal| - 1], from, to) + (if IsOff(cal[|cal| - 1], from, to) then 1 else 0)
  }

  /** The table holds at most one row per date. */
  predicate DistinctDates(cal: seq<CalendarDay>) {
    forall i, j :: 0 <= i < j < |cal| ==> cal[i].date != cal[j].date
  }

  /** Working days between two dates: the day of month of `end` minus the
      number of holiday-or-weekend rows dated within [start, end]. Not clamped. */
  function CalculateWorkingDays(start: CivilDate, end: CivilDate, cal: seq<CalendarDay>): (w: int)
    requires 1 <= start.month <= 12 && 1 <= end.month <= 12
    ensures w <= end.day
    ensures w >= end.day - |cal|
  {
    end.day - CountOff(cal, DayNumber(start), DayNumber(end))
  }

  /** The month a report covers, numerically. */
  datatype YearMonth = YearMonth(year: int, month: int)

  /** The query's month and year, each defaulting to today's when absent. */
  function QueryMonth(month: Option<int>, year: Option<int>, today: YearMonth): YearMonth {
    YearMonth(year.GetOr(today.year), month.GetOr(today.month))
  }

  /** The first and last day of the month's range, `new Date(y, m - 1, 1)` and
      `new Date(y, m, 0)`. */
  function FirstDay(q: YearMonth): Day {
    DayNumber(StartOfMonth(q.year, q.month))
  }

  function LastDay(q: YearMonth): Day {
    DayNumber(EndOfMonth(q.year, q.month))
  }

  /** The working days of month `m` of year `y`, over the range the reports build:
      `new Date(y, m - 1, 1)` to `new Date(y, m, 0)`. */
  function MonthWorkingDays(y: int, m: int, cal: seq<CalendarDay>): (w: int)
    ensures w <= EndOfMonth(y, m).day
    ensures cal == [] ==> w == EndOfMonth(y, m).day
  {
    CalculateWorkingDays(StartOfMonth(y, m), EndOfMonth(y, m), cal)
  }

  /** Absent days: working days not covered by present days, floored at zero. */
  function AbsentDays(working: int, present: int): (absent: nat)
    ensures present + absent >= working
    ensures absent > 0 ==> present + absent == working
  {
    if working - present > 0 then working - present else 0
  }

  /** Reference count: the number of row positions that are off. A row flagged
      both holiday and weekend is one position, so it is counted once. */
  lemma {:induction false} CountOffIsRowCount(cal: seq<CalendarDay>, from: Day, to: Day)
    ensures CountOff(cal, from, to) == |set i | 0 <= i < |cal| && IsOff(cal[i], from, to)|
    decreases |cal|
  {
    var rows := set i | 0 <= i < |cal| && IsOff(cal[i], from, to);
    if |cal| > 0 {
      var p := cal[..|cal| - 1];
      var last := |cal| - 1;
      var prev := set i | 0 <= i < |p| && IsOff(p[i], from, to);
      CountOffIsRowCount(p, from, to);
      if IsOff(cal[last], from, to) {
        assert rows == prev + {last};
        assert last !in prev;
      } else {
        assert rows == prev;
      }
    }
  }

  /** The dates of the off rows. */
  function OffDates(cal: seq<CalendarDay>, from: Day, to: Day): set<Day> {
    set i | 0 <= i < |cal| && IsOff(cal[i], from, to) :: cal[i].date
  }

  /** The off dates of a table grown by one row. */
  lemma OffDatesSnoc(p: seq<CalendarDay>, x: CalendarDay, from: Day, to: Day)
    ensures OffDates(p + [x], from, to)
      == OffDates(p, from, to) + (if IsOff(x, from, to) then {x.date} else {})
  {
    var cal := p + [x];
    var before, after := OffDates(p, from, to), OffDates(cal, from, to);
    forall d | d in after ensures d in before || (IsOff(x, from, to) && d == x.date) {
      var i :| 0 <= i < |cal| && IsOff(cal[i], from, to) && cal[i].date == d;
      if i < |p| { assert p[i] == cal[i]; }
    }
    forall d | d in before ensures d in after {
      var i :| 0 <= i < |p| && IsOff(p[i], from, to) && p[i].date == d;
      assert cal[i] == p[i];
    }
    if IsOff(x, from, to) { assert cal[|p|] == x; }
  }

  /** With one row per date, the count equals the number of distinct off dates. */
  lemma {:induction false} CountOffDistinct(cal: seq<CalendarDay>, from: Day, to: Day)
    requires DistinctDates(cal)
    ensures CountOff(cal, from, to) == |OffDates(cal, from, to)|
    decreases |cal|
  {
    if |cal| > 0 {
      var p := cal[..|cal| - 1];
      var x := cal[|cal| - 1];
      assert DistinctDates(p);
      CountOffDistinct(p, from, to);
      assert cal == p + [x];
      OffDatesSnoc(p, x, from, to);
      var before := OffDates(p, from, to);
      assert x.date !in before;
    }
  }

  /** The days from `lo` to `hi` inclusive. */
  function Interval(lo: int, hi: int): (days: set<int>)
    ensures forall d :: d in days <==> lo <= d <= hi
    ensures |days| == (if lo <= hi then hi - lo + 1 else 0)
    decreases hi - lo + 1
  {
    if lo > hi then {}
    else
      var before := Interval(lo, hi - 1);
      assert hi !in before;
      before + {hi}
  }

  lemma {:induction false} SubsetSize<T>(a: set<T>, b: set<T>)
    requires a <= b
    ensures |a| <= |b|
    decreases |a|
  {
    if a != {} {
      var x :| x in a;
      SubsetSize(a - {x}, b - {x});
    }
  }

  /** Working days never exceed the month's length; they are non-negative when the
      calendar holds at most one row per date. */
  lemma WorkingDaysBounds(y: int, m: int, cal: seq<CalendarDay>)
    ensures MonthWorkingDays(y, m, cal) <= DaysInMonth(StartOfMonth(y, m).year, StartOfMonth(y, m).month)
    ensures DistinctDates(cal) ==> MonthWorkingDays(y, m, cal) >= 0
  {
    var s, e := StartOfMonth(y, m), EndOfMonth(y, m);
    MonthRange(y, m);
    if DistinctDates(cal) {
      var from, to := DayNumber(s), DayNumber(e);
      CountOffDistinct(cal, from, to);
      assert OffDates(cal, from, to) <= Interval(from, to);
      SubsetSize(OffDates(cal, from, to), Interval(from, to));
    }
  }

  /** `n` copies of one row. */
  function Copies(c: CalendarDay, n: nat): (cal: seq<CalendarDay>)
    ensures |cal| == n && forall i :: 0 <= i < n ==> cal[i] == c
  {
    seq(n, _ => c)
  }

  lemma {:induction false} CountCopies(c: CalendarDay, n: nat, from: Day, to: Day)
    requires IsOff(c, from, to)
    ensures CountOff(Copies(c, n), from, to) == n
    decreases n
  {
    if n > 0 {
      assert Copies(c, n)[..n - 1] == Copies(c, n - 1);
      CountCopies(c, n - 1, from, to);
    }
  }

  /** Without the one-row-per-date guarantee the figure goes negative: 32 rows
      for the first day of any month outnumber its days. */
  lemma WorkingDaysCanBeNegative(y: int, m: int)
    ensures exists cal :: MonthWorkingDays(y, m, cal) < 0
  {
    var first := DayNumber(StartOfMonth(y, m));
    MonthRange(y, m);
    var cal := Copies(CalendarDay(first, true, true), 32);
    CountCopies(CalendarDay(first, true, true), 32, first, DayNumber(EndOfMonth(y, m)));
    assert MonthWorkingDays(y, m, cal) < 0;
  }
}

=== FILE: dates.dfy ===
/** Calendar dates as the service builds them with JavaScript's `Date`.

    Stored dates are date-only, so the model numbers days: a `Day` is an integer
    day count, and `DayNumber` places a civil (year, month, day) date on that
    line. Time of day and time zones are not modelled. */
module Dates {

  /** A date-only value: a day number. */
  type Day = int

  /** A civil date; `month` is 1-based. */
  datatype CivilDate = CivilDate(year: int, month: int, day: int)

  /** The Gregorian leap-year rule. */
  predicate IsLeapYear(y: int) {
    y % 4 == 0 && (y % 100 != 0 || y % 400 == 0)
  }

  /** Number of days in month `m` (1..12) of year `y`. */
  function DaysInMonth(y: int, m: int): (n: int)
    requires 1 <= m <= 12
    ensures 28 <= n <= 31
    ensures m == 2 ==> (n == 29 <==> IsLeapYear(y))
    ensures m != 2 ==> (n == 30 <==> (m == 4 || m == 6 || m == 9 || m == 11))
  {
    if m == 2 then (if IsLeapYear(y) then 29 else 28)
    else if m == 4 || m == 6 || m == 9 || m == 11 then 30
    else 31
  }

  /** A date whose month is 1..12 and whose day exists in that month. */
  predicate Valid(d: CivilDate) {
    1 <= d.month <= 12 && 1 <= d.day <= DaysInMonth(d.year, d.month)
  }

  /** Days in the years before `y`, counted from year 0 (proleptic Gregorian). */
  function DaysBeforeYear(y: int): int {
    365 * y + (y + 3) / 4 - (y + 99) / 100 + (y + 399) / 400
  }

  /** Days in the months of year `y` before month `m`. */
  function DaysBeforeMonth(y: int, m: int): int
    requires 1 <= m <= 12
  {
    var cumulative := [0, 31, 59, 90, 120, 151, 181, 212, 243, 273, 304, 334];
    cumulative[m - 1] + (if m > 2 && IsLeapYear(y) then 1 else 0)
  }

  /** The day number of a civil date. */
  function DayNumber(d: CivilDate): Day
    requires 1 <= d.month <= 12
  {
    DaysBeforeYear(d.year) + DaysBeforeMonth(d.year, d.month) + d.day - 1
  }

  /** `new Date(y, ...)` reads a year 0..99 as 1900..1999. */
  function JsYear(y: int): int {
    if 0 <= y <= 99 then 1900 + y else y
  }

  /** `new Date(y, m - 1, 1)`: the first day of month `m` (1-based), where a month
      outside 1..12 rolls over into neighbouring years as `Date` does. */
  function StartOfMonth(y: int, m: int): (d: CivilDate)
    ensures Valid(d) && d.day == 1
    ensures 12 * d.year + d.month == 12 * JsYear(y) + m
  {
    CivilDate(JsYear(y) + (m - 1) / 12, (m - 1) % 12 + 1, 1)
  }

  /** `new Date(y, m, 0)`: day 0 of month index `m`, that is the day before the
      first day of that month. */
  function EndOfMonth(y: int, m: int): (d: CivilDate)
    ensures Valid(d)
    ensures 12 * d.year + d.month == 12 * JsYear(y) + m
    ensures d.day == DaysInMonth(d.year, d.month)
  {
    var year := JsYear(y) + m / 12;
    var month := m % 12 + 1;
    assert m == 12 * (m / 12) + m % 12;
    if month == 1 then CivilDate(year - 1, 12, 31)
    else CivilDate(year, month - 1, DaysInMonth(year, month - 1))
  }

  /** `n * k >= n` for a positive `n` and `k >= 1`. */
  lemma MulAtLeast(n: int, k: int)
    requires n > 0 && k >= 1
    ensures n * k >= n
  {
  }

  /** Division by a positive `n` is fixed by `x == n * q + r` with `0 <= r < n`. */
  lemma DivMod(x: int, n: int, q: int, r: int)
    requires n > 0 && x == n * q + r && 0 <= r < n
    ensures x / n == q && x % n == r
  {
    var q0, r0 := x / n, x % n;
    assert x == n * q0 + r0 && 0 <= r0 < n;
    if q0 < q {
      assert n * (q - q0) == n * q - n * q0;
      MulAtLeast(n, q - q0);
    } else if q < q0 {
      assert n * (q0 - q) == n * q0 - n * q;
      MulAtLeast(n, q0 - q);
    }
  }

  /** Division by 12 as used for month roll-over. */
  lemma DivMod12(x: int, q: int, r: int)
    requires x == 12 * q + r && 0 <= r < 12
    ensures x / 12 == q && x % 12 == r
  {
    DivMod(x, 12, q, r);
  }

  /** `(x + n) / n - (x + n - 1) / n` is 1 exactly when `n` divides `x`. */
  lemma StepCount(x: int, n: int)
    requires n > 0
    ensures (x + n) / n - (x + n - 1) / n == (if x % n == 0 then 1 else 0)
  {
    var q, r := x / n, x % n;
    assert x == n * q + r && 0 <= r < n;
    assert x + n == n * (q + 1) + r;
    DivMod(x + n, n, q + 1, r);
    if r == 0 {
      assert x + n - 1 == n * q + (n - 1);
      DivMod(x + n - 1, n, q, n - 1);
    } else {
      assert x + n - 1 == n * (q + 1) + (r - 1);
      DivMod(x + n - 1, n, q + 1, r - 1);
    }
  }

  /** The two constructions land in the same month, and the end day is the
      month's last day, so the range holds exactly the month's days. */
  lemma {:induction false} MonthRange(y: int, m: int)
    ensures StartOfMonth(y, m).year == EndOfMonth(y, m).year
    ensures StartOfMonth(y, m).month == EndOfMonth(y, m).month
    ensures EndOfMonth(y, m).day == DaysInMonth(StartOfMonth(y, m).year, StartOfMonth(y, m).month)
    ensures DayNumber(EndOfMonth(y, m)) - DayNumber(StartOfMonth(y, m)) + 1
            == EndOfMonth(y, m).day
  {
    var q, r := (m - 1) / 12, (m - 1) % 12;
    assert m - 1 == 12 * q + r && 0 <= r < 12;
    if r == 11 {
      DivMod12(m, q + 1, 0);
    } else {
      DivMod12(m, q, r + 1);
    }
  }

  /** A year has 365 days, 366 in a leap year. */
  lemma {:induction false} YearLength(y: int)
    ensures DaysBeforeYear(y + 1) - DaysBeforeYear(y) == (if IsLeapYear(y) then 366 else 365)
  {
    assert DaysBeforeYear(y + 1) - DaysBeforeYear(y)
      == 365 + ((y + 4) / 4 - (y + 3) / 4) - ((y + 100) / 100 - (y + 99) / 100)
             + ((y + 400) / 400 - (y + 399) / 400);
    StepCount(y, 4);
    StepCount(y, 100);
    StepCount(y, 400);
    if y % 100 == 0 {
      var q := y / 100;
      assert y == 4 * (25 * q);
      DivMod(y, 4, 25 * q, 0);
    }
    if y % 400 == 0 {
      var q := y / 400;
      assert y == 100 * (4 * q);
      DivMod(y, 100, 4 * q, 0);
    }
  }

  /** The end of month `m` is the day right before the start of month `m + 1`:
      day 0 of a month is the previous month's last day. */
  lemma {:induction false} MonthsAreContiguous(y: int, m: int)
    ensures DayNumber(EndOfMonth(y, m)) + 1 == DayNumber(StartOfMonth(y, m + 1))
  {
    var s := StartOfMonth(y, m + 1);
    DivMod12(m, s.year - JsYear(y), s.month - 1);
    if s.month == 1 {
      YearLength(s.year - 1);
    }
  }
}

=== FILE: day_completion.dfy ===
/** The 23:00 completion job: today's rows with a check-in and no check-out are
    classified FULL_DAY, and the check-out is left absent. */
module DayCompletion {
  import opened Outcomes
  import opened Dates
  import opened Attendance

  /** The job's query: dated today, checked in, not checked out. */
  predicate Incomplete(a: Attendance, today: Day) {
    a.date == today && a.checkin.Some? && a.checkout.None?
  }

  /** The keys of the rows the job selects. */
  function Selected(store: AttendanceStore, today: Day): set<AttKey> {
    set k | k in store && Incomplete(store[k], today)
  }

  datatype Completion = Completion(store: AttendanceStore, count: nat)

  /** One run: every selected row gets `attendanceType` FULL_DAY; the count is the
      number of selected rows. */
  function CompleteDay(store: AttendanceStore, today: Day): (r: Completion)
    ensures r.store.Keys == store.Keys
  {
    Completion(
      map k | k in store :: if Incomplete(store[k], today) then store[k].(kind := Some(FULL_DAY)) else store[k],
      |Selected(store, today)|)
  }

  /** What the job writes: selected rows become FULL_DAY with the check-out still
      absent; every other row is unchanged; only the classification is written. */
  lemma CompletionEffects(store: AttendanceStore, today: Day)
    ensures var r := CompleteDay(store, today).store;
      forall k :: k in store ==>
        && r[k].(kind := store[k].kind) == store[k]
        && (Incomplete(store[k], today) ==> r[k].kind == Some(FULL_DAY) && r[k].checkout.None?)
        && (!Incomplete(store[k], today) ==> r[k] == store[k])
        && (store[k].kind == Some(FULL_DAY) ==> r[k].kind == Some(FULL_DAY))
        && (r[k].checkout.Some? ==> r[k].checkout == store[k].checkout)
    ensures CompleteDay(store, today).count == |Selected(store, today)|
  {
  }

  /** After a run no selected row for today is HALF_DAY or unclassified. */
  lemma NoHalfDayLeft(store: AttendanceStore, today: Day)
    ensures var r := CompleteDay(store, today).store;
      forall k :: k in r && Incomplete(r[k], today) ==> r[k].kind == Some(FULL_DAY)
  {
  }

  /** A second run writes nothing. It selects the same rows again, because the
      check-out stays absent, so it reports the same count. */
  lemma CompletionIdempotent(store: AttendanceStore, today: Day)
    ensures var first := CompleteDay(store, today);
      var second := CompleteDay(first.store, today);
      second.store == first.store && Selected(first.store, today) == Selected(store, today)
      && second.count == first.count
  {
    var first := CompleteDay(store, today);
    assert Selected(first.store, today) == Selected(store, today);
  }
}

=== FILE: fieldtrip_attendance.dfy ===
/** The field-trip attendance automator: for every active trip covering today it
    writes a FULL_DAY / FIELDTRIP row for the employee unless a row for
    (employee, today) already exists. */
module FieldTripAttendance {
  import opened Outcomes
  import opened Dates
  import opened Attendance
  import opened FieldTrips

  /** 09:30 and 17:30, as minutes of the day. */
  const CheckinMinute: int := 9 * 60 + 30
  const CheckoutMinute: int := 17 * 60 + 30

  /** `"Field Trip - " + (description || "Auto-marked")`. */
  function TakenLocation(description: Option<string>): (s: string)
    ensures description.Some? && description.value != "" ==> s == "Field Trip - " + description.value
    ensures (description.None? || description == Some("")) ==> s == "Field Trip - Auto-marked"
  {
    "Field Trip - " + (if description.None? || description == Some("") then "Auto-marked" else description.value)
  }

  /** The row created for an employee on a trip. */
  function FieldTripRow(t: FieldTrip, today: Day): (a: Attendance)
    ensures a.employee == t.employee && a.date == today
    ensures a.kind == Some(FULL_DAY) && a.location == FIELDTRIP && a.session == FN
    ensures a.checkin.Some? && a.checkout.Some? && Before(a.checkin.value, a.checkout.value)
    ensures a.checkin.value.day == today && a.checkout.value.day == today
    ensures a.takenLocation == Some(TakenLocation(t.description))
  {
    Attendance(t.employee, today, Some(Stamp(today, CheckinMinute)), Some(Stamp(today, CheckoutMinute)),
               FN, Some(FULL_DAY), FIELDTRIP, Some(TakenLocation(t.description)))
  }

  datatype MarkStatus = Marked | AlreadyMarked

  /** One entry of the job's report, one per qualifying trip. */
  datatype MarkResult = MarkResult(employee: EmployeeId, status: MarkStatus)

  datatype Run = Run(store: AttendanceStore, results: seq<MarkResult>)

  /** The position of the first trip of `e` in `q`, or -1 when there is none. */
  function First(q: seq<FieldTrip>, e: EmployeeId): (f: int)
    ensures -1 <= f < |q|
    ensures f >= 0 ==> q[f].employee == e && forall j :: 0 <= j < f ==> q[j].employee != e
    ensures f < 0 ==> forall j :: 0 <= j < |q| ==> q[j].employee != e
    decreases |q|
  {
    if |q| == 0 then -1
    else
      var f := First(q[..|q| - 1], e);
      if f >= 0 then f else if q[|q| - 1].employee == e then |q| - 1 else -1
  }

  /** Processes the trips in order, each one seeing the rows the earlier ones wrote. */
  function Mark(q: seq<FieldTrip>, store: AttendanceStore, today: Day): (r: Run)
    ensures |r.results| == |q|
    ensures store.Keys <= r.store.Keys
    decreases |q|
  {
    if |q| == 0 then Run(store, [])
    else
      var prev := Mark(q[..|q| - 1], store, today);
      var t := q[|q| - 1];
      var k := AttKey(t.employee, today);
      if k in prev.store then
        Run(prev.store, prev.results + [MarkResult(t.employee, AlreadyMarked)])
      else
        Run(prev.store[k := FieldTripRow(t, today)], prev.results + [MarkResult(t.employee, Marked)])
  }

  /** Existing rows are never modified, and afterwards every trip's employee has a
      row for today: at most one per (employee, today), however many trips. */
  lemma {:induction false} MarkKeepsAndCovers(q: seq<FieldTrip>, store: AttendanceStore, today: Day)
    ensures var r := Mark(q, store, today).store;
      && (forall k :: k in store ==> k in r && r[k] == store[k])
      && (forall i :: 0 <= i < |q| ==> AttKey(q[i].employee, today) in r)
    decreases |q|
  {
    if |q| > 0 {
      var p := q[..|q| - 1];
      MarkKeepsAndCovers(p, store, today);
      assert forall i :: 0 <= i < |p| ==> p[i] == q[i];
    }
  }

  /** A row the job adds is keyed (employee, today) and is the field-trip row of
      that employee's first qualifying trip. */
  lemma {:induction false} MarkNewRows(q: seq<FieldTrip>, store: AttendanceStore, today: Day)
    ensures var r := Mark(q, store, today).store;
      forall k :: k in r && k !in store ==>
        k.date == today && First(q, k.employee) >= 0 && r[k] == FieldTripRow(q[First(q, k.employee)], today)
    decreases |q|
  {
    if |q| > 0 {
      var p := q[..|q| - 1];
      var t := q[|q| - 1];
      MarkNewRows(p, store, today);
      var prev := Mark(p, store, today);
      var r := Mark(q, store, today).store;
      var kt := AttKey(t.employee, today);
      forall k | k in r && k !in store
        ensures k.date == today && First(q, k.employee) >= 0
        ensures r[k] == FieldTripRow(q[First(q, k.employee)], today)
      {
        if k in prev.store {
          var f := First(p, k.employee);
          assert f >= 0 && prev.store[k] == FieldTripRow(p[f], today);
          assert First(q, k.employee) == f;
          assert p[f] == q[f];
          if kt !in prev.store {
            assert k != kt;
          }
          assert r[k] == prev.store[k];
        } else {
          assert kt !in prev.store && k == kt;
          MarkKeepsAndCovers(p, store, today);
          assert First(p, t.employee) < 0;
          assert First(q, t.employee) == |q| - 1;
        }
      }
    }
  }

  /** Before the last trip of `q` is processed, its employee lacks a row for
      today exactly when they lacked one at the start and it is their first trip. */
  lemma LastFindsNoRow(q: seq<FieldTrip>, store: AttendanceStore, today: Day)
    requires |q| > 0
    ensures var t := q[|q| - 1];
      AttKey(t.employee, today) !in Mark(q[..|q| - 1], store, today).store <==>
        AttKey(t.employee, today) !in store && First(q, t.employee) == |q| - 1
  {
    var p := q[..|q| - 1];
    var t := q[|q| - 1];
    var k := AttKey(t.employee, today);
    var prev := Mark(p, store, today).store;
    if k !in prev {
      MarkKeepsAndCovers(p, store, today);
      assert First(p, t.employee) < 0;
    } else if k !in store {
      MarkNewRows(p, store, today);
      assert First(p, t.employee) >= 0;
    }
  }

  /** Adding a trip at the end keeps every earlier employee's first position. */
  lemma FirstOfPrefix(q: seq<FieldTrip>, e: EmployeeId)
    requires |q| > 0
    ensures var f := First(q[..|q| - 1], e);
      f >= 0 ==> First(q, e) == f
    ensures First(q[..|q| - 1], e) < 0 ==> First(q, e) < 0 || First(q, e) == |q| - 1
  {
  }

  /** Processing one more trip keeps the earlier results. */
  lemma MarkPrefixResults(q: seq<FieldTrip>, store: AttendanceStore, today: Day)
    requires |q| > 0
    ensures Mark(q, store, today).results[..|q| - 1] == Mark(q[..|q| - 1], store, today).results
  {
  }

  /** One result per trip, in order: `marked` exactly for the first trip of an
      employee who had no row for today, `already_marked` for every other. */
  lemma {:induction false} MarkResults(q: seq<FieldTrip>, store: AttendanceStore, today: Day)
    ensures var r := Mark(q, store, today);
      forall i :: 0 <= i < |q| ==>
        && r.results[i].employee == q[i].employee
        && (r.results[i].status == Marked <==>
              AttKey(q[i].employee, today) !in store && First(q, q[i].employee) == i)
    decreases |q|
  {
    if |q| > 0 {
      var p := q[..|q| - 1];
      var n := |q| - 1;
      MarkResults(p, store, today);
      MarkPrefixResults(q, store, today);
      var prev := Mark(p, store, today);
      var r := Mark(q, store, today);
      forall i | 0 <= i < n
        ensures r.results[i].employee == q[i].employee
        ensures r.results[i].status == Marked <==>
          AttKey(q[i].employee, today) !in store && First(q, q[i].employee) == i
      {
        assert r.results[i] == r.results[..n][i] == prev.results[i];
        assert p[i] == q[i];
        FirstOfPrefix(q, q[i].employee);
      }
      LastFindsNoRow(q, store, today);
    }
  }

  /** The trips of a keyed list, in its order. */
  function TripsOf(a: seq<KeyedTrip>): (q: seq<FieldTrip>)
    ensures |q| == |a| && forall i :: 0 <= i < |a| ==> q[i] == a[i].trip
  {
    seq(|a|, i requires 0 <= i < |a| => a[i].trip)
  }

  /** The trips the job queries: active, start <= today <= end, in key order,
      one per qualifying trip row. */
  function TripsOnDay(table: TripTable, today: Day): (q: seq<FieldTrip>)
    ensures |q| == |ActiveOnTarget(table, today)|
  {
    TripsOf(ActiveOnTarget(table, today))
  }

  /** The job's list holds exactly the active trips covering today, one entry
      per key-ordered active trip. */
  lemma TripsOnDayExact(table: TripTable, today: Day)
    ensures var q, a := TripsOnDay(table, today), ActiveOnTarget(table, today);
      && (forall i :: 0 <= i < |q| ==> q[i] == table[a[i].key] && ActiveOn(q[i], today))
      && KeyOrdered(a)
      && (forall k :: 0 <= k < |table| && ActiveOn(table[k], today) ==>
            exists i :: 0 <= i < |q| && a[i].key == k)
  {
    var q, a := TripsOnDay(table, today), ActiveOnTarget(table, today);
    forall i | 0 <= i < |q| ensures q[i] == table[a[i].key] && ActiveOn(q[i], today) {
      assert a[i] in a;
    }
    forall k | 0 <= k < |table| && ActiveOn(table[k], today)
      ensures exists i :: 0 <= i < |q| && a[i].key == k
    {
      assert KeyedTrip(k, table[k]) in a;
      var i :| 0 <= i < |a| && a[i] == KeyedTrip(k, table[k]);
      assert a[i].key == k;
    }
  }

  /** The same, by value: a trip is on the list exactly when it is an active trip
      of the table covering today. */
  lemma TripsOnDayMembers(table: TripTable, today: Day)
    ensures forall t :: t in TripsOnDay(table, today) <==> t in table && ActiveOn(t, today)
  {
    var q, a := TripsOnDay(table, today), ActiveOnTarget(table, today);
    TripsOnDayExact(table, today);
    forall t ensures t in q <==> t in table && ActiveOn(t, today) {
      if t in q {
        var i :| 0 <= i < |q| && q[i] == t;
        assert a[i] in a;
        assert a[i].key < |table|;
      }
      if t in table && ActiveOn(t, today) {
        var k :| 0 <= k < |table| && table[k] == t;
        var i :| 0 <= i < |q| && a[i].key == k;
        assert q[i] == t;
      }
    }
  }

  /** One run of the job. */
  function ProcessFieldTripAttendance(table: TripTable, store: AttendanceStore, today: Day): (r: Run)
    ensures |r.results| == |ActiveOnTarget(table, today)|
    ensures forall k :: k in store ==> k in r.store && r.store[k] == store[k]
    ensures forall k :: 0 <= k < |table| && ActiveOn(table[k], today) ==>
      AttKey(table[k].employee, today) in r.store
  {
    var q := TripsOnDay(table, today);
    MarkKeepsAndCovers(q, store, today);
    TripsOnDayExact(table, today);
    Mark(q, store, today)
  }

  /** When every trip's employee already has a row today, nothing is written and
      every entry is `already_marked`. */
  lemma {:induction false} MarkWhenAllPresent(q: seq<FieldTrip>, store: AttendanceStore, today: Day)
    requires forall i :: 0 <= i < |q| ==> AttKey(q[i].employee, today) in store
    ensures Mark(q, store, today).store == store
    ensures forall i :: 0 <= i < |q| ==> Mark(q, store, today).results[i].status == AlreadyMarked
    decreases |q|
  {
    if |q| > 0 {
      MarkWhenAllPresent(q[..|q| - 1], store, today);
    }
  }

  /** A second run on the same day writes nothing and reports every trip as
      `already_marked`. */
  lemma ProcessIdempotent(table: TripTable, store: AttendanceStore, today: Day)
    ensures var first := ProcessFieldTripAttendance(table, store, today);
      var second := ProcessFieldTripAttendance(table, first.store, today);
      && second.store == first.store
      && forall i :: 0 <= i < |second.results| ==> second.results[i].status == AlreadyMarked
  {
    var q := TripsOnDay(table, today);
    MarkKeepsAndCovers(q, store, today);
    MarkWhenAllPresent(q, Mark(q, store, today).store, today);
  }

  /** The job keeps every row under its own key, and every row it adds is a
      FULL_DAY field-trip row for today with check-in before check-out. */
  lemma ProcessKeepsKeys(table: TripTable, store: AttendanceStore, today: Day)
    requires WellKeyed(store)
    ensures var s := ProcessFieldTripAttendance(table, store, today).store;
      && WellKeyed(s)
      && forall k :: k in s && k !in store ==>
           && s[k].kind == Some(FULL_DAY) && s[k].location == FIELDTRIP && s[k].date == today
           && s[k].checkin.Some? && s[k].checkout.Some? && Before(s[k].checkin.value, s[k].checkout.value)
  {
    var q := TripsOnDay(table, today);
    var s := Mark(q, store, today).store;
    MarkKeepsAndCovers(q, store, today);
    MarkNewRows(q, store, today);
    forall k | k in s && k !in store
      ensures s[k].employee == k.employee && s[k].date == k.date
      ensures s[k].kind == Some(FULL_DAY) && s[k].location == FIELDTRIP
      ensures s[k].checkin.Some? && s[k].checkout.Some? && Before(s[k].checkin.value, s[k].checkout.value)
    {
      var t := q[First(q, k.employee)];
      assert s[k] == FieldTripRow(t, today);
    }
  }
}

=== FILE: fieldtrips.dfy ===
/** The field-trip lifecycle: replacing an employee's active trips, expiring
    overdue trips, deleting and patching a trip by key, the on-trip test behind
    the location lookups, and the list of trips active on a date.

    The trip table is append-only (a trip is never hard-deleted; deactivation is
    its tombstone), so a trip's key is its position in the table. */
module FieldTrips {
  import opened Outcomes
  import opened Dates
  import opened Text
  import opened Attendance
  import opened Roster

  type TripKey = nat

  datatype FieldTrip = FieldTrip(
    employee: EmployeeId,
    start: Day,
    end: Day,
    description: Option<string>,
    createdBy: string,
    isActive: bool)

  type TripTable = seq<FieldTrip>

  /** The trip's date range contains `day`, the end day included. */
  predicate Covers(t: FieldTrip, day: Day) {
    t.start <= day <= t.end
  }

  /** An active trip whose range contains `day`. */
  predicate ActiveOn(t: FieldTrip, day: Day) {
    t.isActive && Covers(t, day)
  }

  /** The test "an active trip covering `day`". */
  function ActiveOnDay(day: Day): FieldTrip -> bool {
    (t: FieldTrip) => ActiveOn(t, day)
  }

  /** The keys of the trips satisfying `p`, in key order (a `findMany` with a filter). */
  function Select(table: TripTable, p: FieldTrip -> bool): (keys: seq<TripKey>)
    ensures forall i :: 0 <= i < |keys| ==> keys[i] < |table| && p(table[keys[i]])
    ensures forall k :: 0 <= k < |table| && p(table[k]) ==> k in keys
    ensures forall i, j :: 0 <= i < j < |keys| ==> keys[i] < keys[j]
    decreases |table|
  {
    if |table| == 0 then []
    else
      var rest := Select(table[..|table| - 1], p);
      if p(table[|table| - 1]) then rest + [|table| - 1] else rest
  }

  /** Selecting from a concatenation selects from both parts. */
  lemma {:induction false} SelectAppend(a: TripTable, b: TripTable, p: FieldTrip -> bool)
    ensures |Select(a + b, p)| == |Select(a, p)| + |Select(b, p)|
    decreases |b|
  {
    if |b| == 0 {
      assert a + b == a;
    } else {
      assert (a + b)[..|a + b| - 1] == a + b[..|b| - 1];
      SelectAppend(a, b[..|b| - 1], p);
    }
  }

  /** Nothing is selected when no trip qualifies. */
  lemma {:induction false} SelectNone(a: TripTable, p: FieldTrip -> bool)
    requires forall k :: 0 <= k < |a| ==> !p(a[k])
    ensures Select(a, p) == []
    decreases |a|
  {
    if |a| > 0 {
      SelectNone(a[..|a| - 1], p);
    }
  }

  /** Every key is selected when every trip qualifies. */
  lemma {:induction false} SelectAll(a: TripTable, p: FieldTrip -> bool)
    requires forall k :: 0 <= k < |a| ==> p(a[k])
    ensures |Select(a, p)| == |a|
    decreases |a|
  {
    if |a| > 0 {
      SelectAll(a[..|a| - 1], p);
    }
  }

  /** Selection looks only at which trips pass: two tables of one length whose
      trips pass at the same keys select the same keys. */
  lemma {:induction false} SelectSame(a: TripTable, b: TripTable, p: FieldTrip -> bool)
    requires |a| == |b|
    requires forall k :: 0 <= k < |a| ==> (p(a[k]) <==> p(b[k]))
    ensures Select(a, p) == Select(b, p)
    decreases |a|
  {
    if |a| > 0 {
      SelectSame(a[..|a| - 1], b[..|b| - 1], p);
    }
  }

  /** A trip together with its key. */
  datatype KeyedTrip = KeyedTrip(key: TripKey, trip: FieldTrip)

  /** The trips at the given keys. */
  function Keyed(table: TripTable, keys: seq<TripKey>): (r: seq<KeyedTrip>)
    requires forall i :: 0 <= i < |keys| ==> keys[i] < |table|
    ensures |r| == |keys|
    ensures forall i :: 0 <= i < |r| ==> r[i] == KeyedTrip(keys[i], table[keys[i]])
  {
    seq(|keys|, i requires 0 <= i < |keys| => KeyedTrip(keys[i], table[keys[i]]))
  }

  /** Keys strictly increase along the list, so no trip is listed twice. */
  predicate KeyOrdered(r: seq<KeyedTrip>) {
    forall i, j :: 0 <= i < j < |r| ==> r[i].key < r[j].key
  }

  /** The trips passing `p`, each with its key, in key order. */
  function KeyedWhere(table: TripTable, p: FieldTrip -> bool): (r: seq<KeyedTrip>)
    ensures forall x :: x in r ==> x.key < |table| && table[x.key] == x.trip && p(x.trip)
    ensures forall k :: 0 <= k < |table| && p(table[k]) ==> KeyedTrip(k, table[k]) in r
    ensures KeyOrdered(r)
  {
    var keys := Select(table, p);
    var r := Keyed(table, keys);
    assert forall k :: 0 <= k < |table| && p(table[k]) ==> KeyedTrip(k, table[k]) in r by {
      forall k | 0 <= k < |table| && p(table[k]) ensures KeyedTrip(k, table[k]) in r {
        var i :| 0 <= i < |keys| && keys[i] == k;
        assert r[i] == KeyedTrip(k, table[k]);
      }
    }
    r
  }

  // ---------------------------------------------------------------------------
  // Replacing an employee's active trips (saveFieldTrips)
  // ---------------------------------------------------------------------------

  /** One entry of the submitted list. */
  datatype TripInput = TripInput(startDate: Day, endDate: Day, description: Option<string>)

  /** `description || null`: a missing or empty description is stored as null. */
  function StoredDescription(d: Option<string>): (r: Option<string>)
    ensures r.None? <==> (d.None? || d == Some(""))
    ensures r.Some? ==> r == d
  {
    if d.None? || d == Some("") then None else d
  }

  /** `req.user?.username || "admin"`. */
  function Creator(requester: Option<string>): (r: string)
    ensures r != ""
    ensures requester.Some? && requester.value != "" ==> r == requester.value
    ensures (requester.None? || requester == Some("")) ==> r == "admin"
  {
    if requester.None? || requester == Some("") then "admin" else requester.value
  }

  /** The `updateMany` that deactivates the employee's trips. */
  function DeactivateEmployee(table: TripTable, e: EmployeeId): (r: TripTable)
    ensures |r| == |table|
    ensures forall k :: 0 <= k < |table| ==>
      r[k] == (if table[k].employee == e then table[k].(isActive := false) else table[k])
  {
    seq(|table|, k requires 0 <= k < |table| =>
      if table[k].employee == e then table[k].(isActive := false) else table[k])
  }

  /** The trips created, one per entry, all active. */
  function NewTrips(e: EmployeeId, entries: seq<TripInput>, creator: string): (r: seq<FieldTrip>)
    ensures |r| == |entries|
    ensures forall j :: 0 <= j < |entries| ==>
      r[j] == FieldTrip(e, entries[j].startDate, entries[j].endDate,
                        StoredDescription(entries[j].description), creator, true)
  {
    seq(|entries|, j requires 0 <= j < |entries| =>
      FieldTrip(e, entries[j].startDate, entries[j].endDate,
                StoredDescription(entries[j].description), creator, true))
  }

  /** The table after a successful save, and the created trips. */
  datatype Saved = Saved(table: TripTable, created: seq<KeyedTrip>)

  predicate IsEmployee(users: seq<User>, e: EmployeeId) {
    exists u :: u in users && u.employeeNumber == e
  }

  /** Replaces the employee's active trips with the supplied list, in one atomic
      step. `employee == ""` stands for a missing employee number and
      `entries == None` for a value that is not an array. */
  function SaveFieldTrips(users: seq<User>, table: TripTable, employee: EmployeeId,
                          entries: Option<seq<TripInput>>, requester: Option<string>): (r: Result<Saved>)
    ensures employee == "" ==> r == Err(InvalidInput)
    ensures employee != "" && entries.None? ==> r == Err(InvalidInput)
    ensures employee != "" && entries.Some? && !IsEmployee(users, employee) ==> r == Err(NotFound)
    ensures r.Ok? <==> employee != "" && entries.Some? && IsEmployee(users, employee)
    ensures r.Ok? ==>
      var t, n := r.value.table, |table|;
      && |t| == n + |entries.value|
      && (forall k :: 0 <= k < n ==>
            t[k] == (if table[k].employee == employee then table[k].(isActive := false) else table[k]))
      && (forall j :: 0 <= j < |entries.value| ==>
            t[n + j] == FieldTrip(employee, entries.value[j].startDate, entries.value[j].endDate,
                                  StoredDescription(entries.value[j].description), Creator(requester), true))
      && |r.value.created| == |entries.value|
      && (forall j :: 0 <= j < |entries.value| ==> r.value.created[j] == KeyedTrip(n + j, t[n + j]))
  {
    if employee == "" then Err(InvalidInput)
    else if entries.None? then Err(InvalidInput)
    else match FindUser(users, (u: User) => u.employeeNumber == employee)
      case None => Err(NotFound)
      case Some(_) => Ok(Replaced(table, employee, entries.value, Creator(requester)))
  }

  /** The successful branch of a save: the employee's trips deactivated in place
      and the new ones appended with their keys. */
  function Replaced(table: TripTable, employee: EmployeeId, entries: seq<TripInput>, creator: string): (r: Saved)
    ensures
      var t, n := r.table, |table|;
      && |t| == n + |entries|
      && (forall k :: 0 <= k < n ==>
            t[k] == (if table[k].employee == employee then table[k].(isActive := false) else table[k]))
      && (forall j :: 0 <= j < |entries| ==>
            t[n + j] == FieldTrip(employee, entries[j].startDate, entries[j].endDate,
                                  StoredDescription(entries[j].description), creator, true))
      && |r.created| == |entries|
      && (forall j :: 0 <= j < |entries| ==> r.created[j] == KeyedTrip(n + j, t[n + j]))
  {
    var created := NewTrips(employee, entries, creator);
    var t := DeactivateEmployee(table, employee) + created;
    Saved(t, seq(|created|, j requires 0 <= j < |created| => KeyedTrip(|table| + j, created[j])))
  }

  /** The test "an active trip of employee `e`". */
  function ActiveTripOf(e: EmployeeId): FieldTrip -> bool {
    (t: FieldTrip) => t.employee == e && t.isActive
  }

  /** The number of active trips of an employee. */
  function ActiveCount(table: TripTable, e: EmployeeId): nat {
    |Select(table, ActiveTripOf(e))|
  }

  /** Deactivating an employee's trips and appending active trips of theirs
      leaves exactly the appended ones active for them. */
  lemma ReplaceActive(table: TripTable, employee: EmployeeId, c: seq<FieldTrip>)
    requires forall j :: 0 <= j < |c| ==> c[j].employee == employee && c[j].isActive
    ensures var t := DeactivateEmployee(table, employee) + c;
      && (forall k :: 0 <= k < |t| && t[k].employee == employee ==> (t[k].isActive <==> k >= |table|))
      && (forall k :: 0 <= k < |table| && table[k].employee != employee ==> t[k] == table[k])
      && ActiveCount(t, employee) == |c|
  {
    var d := DeactivateEmployee(table, employee);
    SelectAppend(d, c, ActiveTripOf(employee));
    SelectNone(d, ActiveTripOf(employee));
    SelectAll(c, ActiveTripOf(employee));
  }

  /** After a save, the employee's active trips are exactly the new ones, one per
      entry; every other employee's trips are untouched. */
  lemma SaveReplacesActiveSet(users: seq<User>, table: TripTable, employee: EmployeeId,
                              entries: seq<TripInput>, requester: Option<string>)
    requires SaveFieldTrips(users, table, employee, Some(entries), requester).Ok?
    ensures var t := SaveFieldTrips(users, table, employee, Some(entries), requester).value.table;
      forall k :: 0 <= k < |t| && t[k].employee == employee ==> (t[k].isActive <==> k >= |table|)
    ensures var t := SaveFieldTrips(users, table, employee, Some(entries), requester).value.table;
      forall k :: 0 <= k < |table| && table[k].employee != employee ==> t[k] == table[k]
    ensures ActiveCount(SaveFieldTrips(users, table, employee, Some(entries), requester).value.table, employee) == |entries|
  {
    var c := NewTrips(employee, entries, Creator(requester));
    assert SaveFieldTrips(users, table, employee, Some(entries), requester).value
      == Replaced(table, employee, entries, Creator(requester));
    assert Replaced(table, employee, entries, Creator(requester)).table
      == DeactivateEmployee(table, employee) + c;
    ReplaceActive(table, employee, c);
  }

  /** Saving an empty list clears the active set; saving it again changes no
      active flag. */
  lemma SaveEmptyTwice(users: seq<User>, table: TripTable, employee: EmployeeId, requester: Option<string>)
    requires SaveFieldTrips(users, table, employee, Some([]), requester).Ok?
    ensures var t1 := SaveFieldTrips(users, table, employee, Some([]), requester).value.table;
      && ActiveCount(t1, employee) == 0
      && SaveFieldTrips(users, t1, employee, Some([]), requester).Ok?
      && SaveFieldTrips(users, t1, employee, Some([]), requester).value.table == t1
  {
    SaveReplacesActiveSet(users, table, employee, [], requester);
    var t1 := SaveFieldTrips(users, table, employee, Some([]), requester).value.table;
    var t2 := SaveFieldTrips(users, t1, employee, Some([]), requester).value.table;
    assert |t2| == |t1|;
    forall k | 0 <= k < |t1| ensures t2[k] == t1[k] {
      if t1[k].employee == employee {
        assert !t1[k].isActive;
        assert t1[k].(isActive := false) == t1[k];
      }
    }
  }

  // ---------------------------------------------------------------------------
  // Location: FIELDTRIP or CAMPUS
  // ---------------------------------------------------------------------------

  /** FIELDTRIP iff some active trip of the employee covers `today`. */
  function LocationOf(table: TripTable, e: EmployeeId, today: Day): (loc: LocationType)
    ensures loc == FIELDTRIP <==>
      exists k :: 0 <= k < |table| && table[k].employee == e && ActiveOn(table[k], today)
  {
    var keys := Select(table, (t: FieldTrip) => t.employee == e && ActiveOn(t, today));
    if |keys| > 0 then
      assert table[keys[0]].employee == e && ActiveOn(table[keys[0]], today);
      FIELDTRIP
    else CAMPUS
  }

  /** The answer of the location lookups. */
  datatype LocationReport = LocationReport(
    employeeNumber: EmployeeId, username: string, empClass: string,
    locationType: LocationType, fieldTrips: seq<KeyedTrip>)

  /** The user's active trips ordered by start date. */
  function ActiveTripsOf(table: TripTable, e: EmployeeId): (r: seq<KeyedTrip>)
    ensures forall x :: x in r ==> x.key < |table| && table[x.key] == x.trip && x.trip.employee == e && x.trip.isActive
    ensures forall k :: 0 <= k < |table| && table[k].employee == e && table[k].isActive ==> KeyedTrip(k, table[k]) in r
    ensures SortedTrips(r)
    ensures forall i, j :: 0 <= i < j < |r| ==> r[i].key != r[j].key
  {
    ListingOrder(KeyedWhere(table, ActiveTripOf(e)))
  }

  function Report(u: User, table: TripTable, today: Day): LocationReport {
    LocationReport(u.employeeNumber, u.username, u.empClass,
                   LocationOf(table, u.employeeNumber, today), ActiveTripsOf(table, u.employeeNumber))
  }

  /** The location lookup by username; `username == ""` stands for a missing one. */
  function UserFieldTripsByUsername(users: seq<User>, table: TripTable, username: string, today: Day): (r: Result<LocationReport>)
    ensures username == "" ==> r == Err(InvalidInput)
    ensures username != "" && (forall u :: u in users ==> u.username != username) ==> r == Err(NotFound)
    ensures r.Ok? <==> username != "" && exists u :: u in users && u.username == username
    ensures r.Ok? ==> exists u :: u in users && u.username == username && r.value == Report(u, table, today)
  {
    if username == "" then Err(InvalidInput)
    else match FindUser(users, (u: User) => u.username == username)
      case None => Err(NotFound)
      case Some(u) => Ok(Report(u, table, today))
  }

  /** The location lookup by employee number. */
  function UserFieldTripsByEmployeeNumber(users: seq<User>, table: TripTable, e: EmployeeId, today: Day): (r: Result<LocationReport>)
    ensures e == "" ==> r == Err(InvalidInput)
    ensures e != "" && (forall u :: u in users ==> u.employeeNumber != e) ==> r == Err(NotFound)
    ensures r.Ok? <==> e != "" && exists u :: u in users && u.employeeNumber == e
    ensures r.Ok? ==> exists u :: u in users && u.employeeNumber == e && r.value == Report(u, table, today)
    ensures r.Ok? ==>
      && r.value.employeeNumber == e
      && (r.value.locationType == FIELDTRIP <==>
            exists k :: 0 <= k < |table| && table[k].employee == e && ActiveOn(table[k], today))
  {
    if e == "" then Err(InvalidInput)
    else match FindUser(users, (u: User) => u.employeeNumber == e)
      case None => Err(NotFound)
      case Some(u) => Ok(Report(u, table, today))
  }

  // ---------------------------------------------------------------------------
  // Expiry (checkAndDeactivateExpiredFieldTrips)
  // ---------------------------------------------------------------------------

  /** An active trip whose end date is strictly before `today`. */
  predicate Overdue(t: FieldTrip, today: Day) {
    t.isActive && t.end < today
  }

  function OverdueOn(today: Day): FieldTrip -> bool {
    (t: FieldTrip) => Overdue(t, today)
  }

  datatype ExpiredTrip = ExpiredTrip(employee: EmployeeId, key: TripKey, endDate: Day)

  datatype Expiry = Expiry(table: TripTable, deactivated: seq<ExpiredTrip>)

  /** The report of the trips at `keys`. */
  function ExpiredAt(table: TripTable, keys: seq<TripKey>): (d: seq<ExpiredTrip>)
    requires forall i :: 0 <= i < |keys| ==> keys[i] < |table|
    ensures |d| == |keys|
    ensures forall i :: 0 <= i < |d| ==> d[i] == ExpiredTrip(table[keys[i]].employee, keys[i], table[keys[i]].end)
  {
    seq(|keys|, i requires 0 <= i < |keys| => ExpiredTrip(table[keys[i]].employee, keys[i], table[keys[i]].end))
  }

  /** Deactivates every overdue trip and reports each one, in key order. */
  function ExpireTrips(table: TripTable, today: Day): (r: Expiry)
    ensures |r.table| == |table|
    ensures forall k :: 0 <= k < |table| ==>
      r.table[k] == table[k].(isActive := table[k].isActive && !Overdue(table[k], today))
  {
    var t := seq(|table|, k requires 0 <= k < |table| =>
      table[k].(isActive := table[k].isActive && !Overdue(table[k], today)));
    Expiry(t, ExpiredAt(table, Select(table, OverdueOn(today))))
  }

  /** The report lists every overdue trip exactly once, in key order, with its
      employee and end date, and nothing else. */
  lemma ExpiryReport(table: TripTable, today: Day)
    ensures var d := ExpireTrips(table, today).deactivated;
      && |d| == |Select(table, OverdueOn(today))|
      && (forall i :: 0 <= i < |d| ==>
            && d[i].key < |table| && Overdue(table[d[i].key], today)
            && d[i].employee == table[d[i].key].employee && d[i].endDate == table[d[i].key].end)
      && (forall k :: 0 <= k < |table| && Overdue(table[k], today) ==>
            exists i :: 0 <= i < |d| && d[i].key == k)
      && (forall i, j :: 0 <= i < j < |d| ==> d[i].key < d[j].key)
  {
    var keys := Select(table, OverdueOn(today));
    var d := ExpireTrips(table, today).deactivated;
    assert d == ExpiredAt(table, keys);
    assert forall i :: 0 <= i < |d| ==> d[i].key == keys[i];
    forall i | 0 <= i < |keys| ensures Overdue(table[keys[i]], today) {
      assert OverdueOn(today)(table[keys[i]]);
    }
    forall k | 0 <= k < |table| && Overdue(table[k], today)
      ensures exists i :: 0 <= i < |d| && d[i].key == k
    {
      assert OverdueOn(today)(table[k]);
      var i :| 0 <= i < |keys| && keys[i] == k;
      assert d[i].key == k;
    }
  }

  /** Trips ending today or later stay active, and an immediate re-run
      deactivates nothing and changes nothing. */
  lemma ExpireIdempotent(table: TripTable, today: Day)
    ensures forall k :: 0 <= k < |table| && table[k].isActive && table[k].end >= today ==>
      ExpireTrips(table, today).table[k].isActive
    ensures ExpireTrips(ExpireTrips(table, today).table, today).deactivated == []
    ensures ExpireTrips(ExpireTrips(table, today).table, today).table == ExpireTrips(table, today).table
  {
    var t1 := ExpireTrips(table, today).table;
    var r2 := ExpireTrips(t1, today);
    assert forall k :: 0 <= k < |t1| ==> !OverdueOn(today)(t1[k]);
    SelectNone(t1, OverdueOn(today));
    assert r2.deactivated == ExpiredAt(t1, []);
    forall k | 0 <= k < |t1| ensures r2.table[k] == t1[k] {
      assert !Overdue(t1[k], today);
    }
  }

  // ---------------------------------------------------------------------------
  // Delete and update by key
  // ---------------------------------------------------------------------------

  /** Soft delete: the trip is kept with `isActive` false. `key == None` stands for
      a missing key; a key not in the table is not found. */
  function DeleteFieldTrip(table: TripTable, key: Option<TripKey>): (r: Result<TripTable>)
    ensures key.None? ==> r == Err(InvalidInput)
    ensures key.Some? && key.value >= |table| ==> r == Err(NotFound)
    ensures r.Ok? <==> key.Some? && key.value < |table|
    ensures r.Ok? ==>
      && |r.value| == |table|
      && r.value[key.value] == table[key.value].(isActive := false)
      && (forall k :: 0 <= k < |table| && k != key.value ==> r.value[k] == table[k])
  {
    if key.None? then Err(InvalidInput)
    else if key.value >= |table| then Err(NotFound)
    else Ok(table[key.value := table[key.value].(isActive := false)])
  }

  /** What an update sets the description to: untouched when undefined, else the
      supplied value (null clears it). */
  datatype DescriptionPatch = Keep | SetTo(value: Option<string>)

  /** The update body; a date is applied only when supplied (`if (startDate)`). */
  datatype TripPatch = TripPatch(startDate: Option<Day>, endDate: Option<Day>, description: DescriptionPatch)

  /** Partial update of one trip by key. */
  function UpdateFieldTrip(table: TripTable, key: Option<TripKey>, patch: TripPatch): (r: Result<TripTable>)
    ensures key.None? ==> r == Err(InvalidInput)
    ensures key.Some? && key.value >= |table| ==> r == Err(NotFound)
    ensures r.Ok? <==> key.Some? && key.value < |table|
    ensures r.Ok? ==>
      && |r.value| == |table|
      && (forall k :: 0 <= k < |table| && k != key.value ==> r.value[k] == table[k])
      && var old_, new_ := table[key.value], r.value[key.value];
         && new_.start == patch.startDate.GetOr(old_.start)
         && new_.end == patch.endDate.GetOr(old_.end)
         && new_.description == (if patch.description.SetTo? then patch.description.value else old_.description)
         && new_.employee == old_.employee && new_.createdBy == old_.createdBy
         && new_.isActive == old_.isActive
  {
    if key.None? then Err(InvalidInput)
    else if key.value >= |table| then Err(NotFound)
    else
      var t := table[key.value];
      var t1 := if patch.startDate.Some? then t.(start := patch.startDate.value) else t;
      var t2 := if patch.endDate.Some? then t1.(end := patch.endDate.value) else t1;
      var t3 := if patch.description.SetTo? then t2.(description := patch.description.value) else t2;
      Ok(table[key.value := t3])
  }

  /** After a delete the trip is no longer listed for its employee; every
      other listed trip stays. */
  lemma DeleteDropsTrip(table: TripTable, k: TripKey, e: EmployeeId)
    requires k < |table|
    ensures forall x :: x in ActiveTripsOf(DeleteFieldTrip(table, Some(k)).value, e)
                        <==> x in ActiveTripsOf(table, e) && x.key != k
  {
    var t := DeleteFieldTrip(table, Some(k)).value;
    var now, before := ActiveTripsOf(t, e), ActiveTripsOf(table, e);
    forall x ensures x in now <==> x in before && x.key != k {
      if x in now {
        assert x.key != k;
        assert KeyedTrip(x.key, table[x.key]) in before;
      }
      if x in before && x.key != k {
        assert KeyedTrip(x.key, t[x.key]) in now;
      }
    }
  }

  /** A delete leaves every other employee's active trips at the same keys. */
  lemma DeleteKeepsOthers(table: TripTable, k: TripKey, e: EmployeeId)
    requires k < |table| && e != table[k].employee
    ensures Select(DeleteFieldTrip(table, Some(k)).value, ActiveTripOf(e)) == Select(table, ActiveTripOf(e))
  {
    var t := DeleteFieldTrip(table, Some(k)).value;
    var p := ActiveTripOf(e);
    assert forall j :: 0 <= j < |t| ==> (p(t[j]) <==> p(table[j])) by {
      forall j | 0 <= j < |t| ensures p(t[j]) <==> p(table[j]) {
        if j == k {
          assert t[j].employee == table[j].employee;
        } else {
          assert t[j] == table[j];
        }
      }
    }
    SelectSame(t, table, p);
  }

  /** After a delete the employee is on a field trip exactly when another of
      their active trips covers the day. */
  lemma DeleteLocation(table: TripTable, k: TripKey, e: EmployeeId, today: Day)
    requires k < |table|
    ensures LocationOf(DeleteFieldTrip(table, Some(k)).value, e, today) == FIELDTRIP <==>
      exists j :: 0 <= j < |table| && j != k && table[j].employee == e && ActiveOn(table[j], today)
    ensures e != table[k].employee ==>
      LocationOf(DeleteFieldTrip(table, Some(k)).value, e, today) == LocationOf(table, e, today)
  {
    var t := DeleteFieldTrip(table, Some(k)).value;
    if LocationOf(t, e, today) == FIELDTRIP {
      var j :| 0 <= j < |t| && t[j].employee == e && ActiveOn(t[j], today);
      assert j != k && table[j] == t[j];
    }
    if exists j :: 0 <= j < |table| && j != k && table[j].employee == e && ActiveOn(table[j], today) {
      var j :| 0 <= j < |table| && j != k && table[j].employee == e && ActiveOn(table[j], today);
      assert t[j] == table[j];
    }
  }

  /** An update changes neither owner nor active flag, so every employee's active
      trips sit at the same keys as before. */
  lemma UpdateKeepsActiveKeys(table: TripTable, k: TripKey, patch: TripPatch, e: EmployeeId)
    requires k < |table|
    ensures var t := UpdateFieldTrip(table, Some(k), patch).value;
      && Select(t, ActiveTripOf(e)) == Select(table, ActiveTripOf(e))
      && ActiveCount(t, e) == ActiveCount(table, e)
  {
    var t := UpdateFieldTrip(table, Some(k), patch).value;
    SelectSame(t, table, ActiveTripOf(e));
  }

  // ---------------------------------------------------------------------------
  // Trips active on a date (getAllActiveFieldTrips)
  // ---------------------------------------------------------------------------

  /** The listing order: start date, then employee number. */
  predicate TripLe(a: KeyedTrip, b: KeyedTrip) {
    a.trip.start < b.trip.start ||
    (a.trip.start == b.trip.start && TextLe(a.trip.employee, b.trip.employee))
  }

  lemma TripLeTotal(a: KeyedTrip, b: KeyedTrip)
    ensures TripLe(a, b) || TripLe(b, a)
  {
    TextLeTotal(a.trip.employee, b.trip.employee);
  }

  lemma TripLeTransitive(a: KeyedTrip, b: KeyedTrip, c: KeyedTrip)
    requires TripLe(a, b) && TripLe(b, c)
    ensures TripLe(a, c)
  {
    if a.trip.start == b.trip.start == c.trip.start {
      TextLeTransitive(a.trip.employee, b.trip.employee, c.trip.employee);
    }
  }

  predicate SortedTrips(s: seq<KeyedTrip>) {
    forall i, j :: 0 <= i < j < |s| ==> TripLe(s[i], s[j])
  }

  /** Inserts `x` before the first entry it does not follow. */
  function InsertTrip(x: KeyedTrip, s: seq<KeyedTrip>): (r: seq<KeyedTrip>)
    ensures multiset(r) == multiset(s) + multiset{x}
    decreases |s|
  {
    if |s| == 0 then [x]
    else if TripLe(x, s[0]) then [x] + s
    else
      assert s == [s[0]] + s[1..];
      [s[0]] + InsertTrip(x, s[1..])
  }

  lemma {:induction false} InsertSorted(x: KeyedTrip, s: seq<KeyedTrip>)
    requires SortedTrips(s)
    ensures SortedTrips(InsertTrip(x, s))
    decreases |s|
  {
    if |s| > 0 {
      if TripLe(x, s[0]) {
        forall j | 0 <= j < |s| ensures TripLe(x, s[j]) {
          if j > 0 {
            TripLeTransitive(x, s[0], s[j]);
          }
        }
        assert SortedTrips([x] + s);
      } else {
        TripLeTotal(x, s[0]);
        var rest := InsertTrip(x, s[1..]);
        InsertSorted(x, s[1..]);
        assert forall e :: e in rest ==> TripLe(s[0], e) by {
          forall e | e in rest ensures TripLe(s[0], e) {
            assert e in multiset(rest);
            if e != x {
              assert e in multiset(s[1..]);
              var j :| 0 <= j < |s[1..]| && s[1..][j] == e;
              assert s[j + 1] == e;
            }
          }
        }
        var r := [s[0]] + rest;
        forall i, j | 0 <= i < j < |r| ensures TripLe(r[i], r[j]) {
          if i == 0 {
            assert r[j] == rest[j - 1];
            assert rest[j - 1] in rest;
          } else {
            assert r[i] == rest[i - 1] && r[j] == rest[j - 1];
          }
        }
        assert InsertTrip(x, s) == r;
      }
    }
  }

  /** Insertion sort into listing order; the result is a permutation. */
  function SortTrips(s: seq<KeyedTrip>): (r: seq<KeyedTrip>)
    ensures multiset(r) == multiset(s)
    ensures SortedTrips(r)
    decreases |s|
  {
    if |s| == 0 then []
    else
      assert s == [s[0]] + s[1..];
      var rest := SortTrips(s[1..]);
      InsertSorted(s[0], rest);
      InsertTrip(s[0], rest)
  }

  /** Sorting neither adds nor drops an entry. */
  lemma SortKeepsMembers(s: seq<KeyedTrip>)
    ensures forall x :: x in SortTrips(s) <==> x in s
  {
    var r := SortTrips(s);
    forall x ensures x in r <==> x in s {
      assert x in r <==> x in multiset(r);
      assert x in s <==> x in multiset(s);
    }
  }

  /** How often `x` occurs in a list without repeats: at most once. */
  lemma {:induction false} DistinctOccursOnce(s: seq<KeyedTrip>, x: KeyedTrip)
    requires forall i, j :: 0 <= i < j < |s| ==> s[i] != s[j]
    ensures multiset(s)[x] <= 1
    decreases |s|
  {
    if |s| > 0 {
      assert s == [s[0]] + s[1..];
      DistinctOccursOnce(s[1..], x);
      if s[0] == x {
        assert x !in s[1..] by {
          forall i | 0 <= i < |s[1..]| ensures s[1..][i] != x {
            assert s[1..][i] == s[i + 1];
          }
        }
      }
    }
  }

  /** Two positions holding one entry make it occur twice. */
  lemma TwiceAtTwoPositions(s: seq<KeyedTrip>, i: int, j: int)
    requires 0 <= i < j < |s| && s[i] == s[j]
    ensures multiset(s)[s[i]] >= 2
  {
    assert s == s[..j] + s[j..];
    assert s[i] == s[..j][i];
    assert s[j] == s[j..][0];
    assert multiset(s) == multiset(s[..j]) + multiset(s[j..]);
  }

  /** Sorting a key-ordered list lists no key twice. */
  lemma SortKeepsDistinct(s: seq<KeyedTrip>)
    requires KeyOrdered(s)
    ensures forall i, j :: 0 <= i < j < |SortTrips(s)| ==> SortTrips(s)[i].key != SortTrips(s)[j].key
  {
    var r := SortTrips(s);
    assert forall i, j :: 0 <= i < j < |s| ==> s[i] != s[j] by {
      forall i, j | 0 <= i < j < |s| ensures s[i] != s[j] {
        assert s[i].key < s[j].key;
      }
    }
    forall i, j | 0 <= i < j < |r| ensures r[i].key != r[j].key {
      if r[i].key == r[j].key {
        assert r[i] in multiset(s) && r[j] in multiset(s);
        var a :| 0 <= a < |s| && s[a] == r[i];
        var b :| 0 <= b < |s| && s[b] == r[j];
        assert a == b;
        TwiceAtTwoPositions(r, i, j);
        DistinctOccursOnce(s, r[i]);
        assert false;
      }
    }
  }

  /** A key-ordered list put in listing order: the same entries, each once. */
  function ListingOrder(s: seq<KeyedTrip>): (r: seq<KeyedTrip>)
    requires KeyOrdered(s)
    ensures multiset(r) == multiset(s)
    ensures forall x :: x in r <==> x in s
    ensures SortedTrips(r)
    ensures forall i, j :: 0 <= i < j < |r| ==> r[i].key != r[j].key
  {
    SortKeepsMembers(s);
    SortKeepsDistinct(s);
    SortTrips(s)
  }

  /** A listed trip with its days remaining. */
  datatype ActiveTripView = ActiveTripView(entry: KeyedTrip, daysRemaining: nat)

  /** The trips active on `target`, in key order. */
  function ActiveOnTarget(table: TripTable, target: Day): (r: seq<KeyedTrip>)
    ensures forall x :: x in r ==> x.key < |table| && table[x.key] == x.trip && ActiveOn(x.trip, target)
    ensures forall k :: 0 <= k < |table| && ActiveOn(table[k], target) ==> KeyedTrip(k, table[k]) in r
    ensures KeyOrdered(r)
  {
    KeyedWhere(table, ActiveOnDay(target))
  }

  /** The listed entries without their day counts. */
  function Entries(views: seq<ActiveTripView>): (r: seq<KeyedTrip>)
    ensures |r| == |views| && forall i :: 0 <= i < |views| ==> r[i] == views[i].entry
  {
    seq(|views|, i requires 0 <= i < |views| => views[i].entry)
  }

  /** Attaches `daysRemaining` = end - target, which is at least 0 on covering trips. */
  function WithDaysRemaining(s: seq<KeyedTrip>, target: Day): (views: seq<ActiveTripView>)
    requires forall x :: x in s ==> target <= x.trip.end
    ensures Entries(views) == s
    ensures forall v :: v in views ==> v.entry in s && v.daysRemaining == v.entry.trip.end - target
    ensures forall x :: x in s ==> exists v :: v in views && v.entry == x
  {
    var views := seq(|s|, i requires 0 <= i < |s| =>
      assert s[i] in s;
      ActiveTripView(s[i], s[i].trip.end - target));
    assert Entries(views) == s;
    assert forall x :: x in s ==> exists v :: v in views && v.entry == x by {
      forall x | x in s ensures exists v :: v in views && v.entry == x {
        var i :| 0 <= i < |s| && s[i] == x;
        assert views[i] in views;
      }
    }
    views
  }

  /** Active trips covering `target`, ordered by (start date, employee number),
      each with its days remaining. */
  function AllActiveFieldTrips(table: TripTable, target: Day): (views: seq<ActiveTripView>)
    ensures multiset(Entries(views)) == multiset(ActiveOnTarget(table, target))
    ensures SortedTrips(Entries(views))
    ensures forall v :: v in views ==>
      && v.entry.key < |table| && table[v.entry.key] == v.entry.trip && ActiveOn(v.entry.trip, target)
      && v.daysRemaining == v.entry.trip.end - target
    ensures forall k :: 0 <= k < |table| && ActiveOn(table[k], target) ==>
      exists v :: v in views && v.entry == KeyedTrip(k, table[k])
    ensures forall i, j :: 0 <= i < j < |views| ==> views[i].entry.key != views[j].entry.key
  {
    var unordered := ActiveOnTarget(table, target);
    var sorted := ListingOrder(unordered);
    var views := WithDaysRemaining(sorted, target);
    views
  }
}

=== FILE: hr_controller.dfy ===
/** The HR side: asking PIs for a month's data, the status of each PI's answer,
    the combined report of submitted snapshots, and the presence view and report
    of one PI's staff. */
module HrController {
  import opened Outcomes
  import opened Text
  import opened Calendar
  import opened Attendance
  import opened Statistics
  import opened Roster
  import opened Workflow

  /** Records a request for the period for each listed PI, overwriting any
      earlier request for the same period. */
  function RequestDataFromPIs(s: State, pis: Option<seq<PI>>, period: Period, now: int): (r: Result<State>)
    ensures r.Err? <==> pis.None? || !Given(period)
    ensures r.Err? ==> r.error == InvalidInput
    ensures r.Ok? ==>
      && r.value.submitted == s.submitted
      && (forall pi :: pi in pis.value ==>
            HasRequest(r.value, pi, Key(period)) && r.value.requests[pi][Key(period)] == RequestInfo(now))
      && (forall pi, k :: HasRequest(r.value, pi, k) <==> HasRequest(s, pi, k) || (pi in pis.value && k == Key(period)))
      && (forall pi, k :: HasRequest(s, pi, k) && !(pi in pis.value && k == Key(period)) ==>
            r.value.requests[pi][k] == s.requests[pi][k])
  {
    if pis.None? || !Given(period) then Err(InvalidInput)
    else Ok(Register(s, pis.value, Key(period), RequestInfo(now)))
  }

  /** The status of every known PI for the period. */
  function SubmissionStatus(s: State, pis: seq<PIRecord>, period: Period): (r: Result<map<PI, Status>>)
    ensures r.Err? <==> !Given(period)
    ensures r.Err? ==> r.error == InvalidInput
    ensures r.Ok? ==>
      && (forall pi :: pi in r.value <==> exists p :: p in pis && p.username == pi)
      && (forall pi :: pi in r.value ==> r.value[pi] == StatusOf(s, pi, Key(period)))
  {
    if !Given(period) then Err(InvalidInput)
    else
      var names := set p | p in pis :: p.username;
      Ok(map pi | pi in names :: StatusOf(s, pi, Key(period)))
  }

  /** The snapshots submitted for `key` by the listed PIs, concatenated in list
      order; a PI without a submission contributes nothing. */
  function Combined(s: State, piList: seq<PI>, key: PeriodKey): (r: seq<UserStat>)
    ensures |piList| == 1 ==>
      r == (if HasSubmission(s, piList[0], key) then s.submitted[piList[0]][key] else [])
    decreases |piList|
  {
    if |piList| == 0 then []
    else
      var last := piList[|piList| - 1];
      Combined(s, piList[..|piList| - 1], key)
        + (if HasSubmission(s, last, key) then s.submitted[last][key] else [])
  }

  /** Combining two lists of PIs is combining each and concatenating. */
  lemma {:induction false} CombinedAppend(s: State, a: seq<PI>, b: seq<PI>, key: PeriodKey)
    ensures Combined(s, a + b, key) == Combined(s, a, key) + Combined(s, b, key)
    decreases |b|
  {
    if |b| == 0 {
      assert a + b == a;
    } else {
      var b' := b[..|b| - 1];
      assert (a + b)[..|a + b| - 1] == a + b';
      CombinedAppend(s, a, b', key);
    }
  }

  /** An entry is in the combination exactly when some listed PI submitted it. */
  lemma {:induction false} CombinedMembers(s: State, piList: seq<PI>, key: PeriodKey)
    ensures forall u :: u in Combined(s, piList, key) <==>
      exists i :: 0 <= i < |piList| && HasSubmission(s, piList[i], key) && u in s.submitted[piList[i]][key]
    decreases |piList|
  {
    if |piList| > 0 {
      var init := piList[..|piList| - 1];
      CombinedMembers(s, init, key);
      forall u ensures u in Combined(s, piList, key) <==>
        exists i :: 0 <= i < |piList| && HasSubmission(s, piList[i], key) && u in s.submitted[piList[i]][key]
      {
        if exists i :: 0 <= i < |piList| && HasSubmission(s, piList[i], key) && u in s.submitted[piList[i]][key] {
          var i :| 0 <= i < |piList| && HasSubmission(s, piList[i], key) && u in s.submitted[piList[i]][key];
          if i < |init| {
            assert init[i] == piList[i];
          }
        }
        if u in Combined(s, init, key) {
          var i :| 0 <= i < |init| && HasSubmission(s, init[i], key) && u in s.submitted[init[i]][key];
          assert piList[i] == init[i];
        }
      }
    }
  }

  /** One line of the combined report. */
  datatype ReportRow = ReportRow(name: string, workingDays: int, presentDays: int, absentDays: nat)

  /** The combined report for the PIs named in a comma-separated list. Refused
      when a parameter is missing, and when no listed PI submitted for the period. */
  function DownloadReport(s: State, piUsernames: string, period: Period, q: YearMonth,
                          cal: seq<CalendarDay>): (r: Result<seq<ReportRow>>)
    ensures r == Err(InvalidInput) <==> piUsernames == "" || !Given(period)
    ensures r == Err(NotFound) <==>
      piUsernames != "" && Given(period) && Combined(s, Split(piUsernames, ','), Key(period)) == []
    ensures r.Ok? <==>
      piUsernames != "" && Given(period) && |Combined(s, Split(piUsernames, ','), Key(period))| > 0
    ensures r.Err? ==> r.error in {InvalidInput, NotFound}
    ensures r.Ok? ==>
      var data := Combined(s, Split(piUsernames, ','), Key(period));
      var working := MonthWorkingDays(q.year, q.month, cal);
      && |r.value| == |data| > 0
      && forall i :: 0 <= i < |data| ==>
           && r.value[i].name == data[i].username
           && r.value[i].workingDays == working
           && r.value[i].presentDays == data[i].totalDays
           && r.value[i].presentDays + r.value[i].absentDays >= working
           && (r.value[i].absentDays > 0 ==> r.value[i].presentDays + r.value[i].absentDays == working)
  {
    if piUsernames == "" || !Given(period) then Err(InvalidInput)
    else
      var data := Combined(s, Split(piUsernames, ','), Key(period));
      var working := MonthWorkingDays(q.year, q.month, cal);
      if |data| == 0 then Err(NotFound)
      else
        Ok(seq(|data|, i requires 0 <= i < |data| =>
          ReportRow(data[i].username, working, data[i].totalDays, AbsentDays(working, data[i].totalDays))))
  }

  /** One staff member's presence figures for the month. */
  datatype PresenceRow = PresenceRow(username: string, workingDays: int, presentDays: nat, absentDays: nat)

  /** Present days are the distinct dates with an attendance row in the month. */
  function Presence(s: StaffRecord, q: YearMonth, working: int): (row: PresenceRow)
    ensures row.username == s.user.username && row.workingDays == working
    ensures row.presentDays == |DatesOf(RowsBetween(s.attendances, FirstDay(q), LastDay(q)))|
    ensures row.presentDays + row.absentDays >= working
    ensures row.absentDays > 0 ==> row.presentDays + row.absentDays == working
  {
    var present := PresentDays(RowsBetween(s.attendances, FirstDay(q), LastDay(q)));
    PresenceRow(s.user.username, working, present, AbsentDays(working, present))
  }

  datatype UserPresence = UserPresence(row: PresenceRow, attendances: seq<Attendance>)

  datatype PIAttendance = PIAttendance(piUsername: string, month: YearMonth, totalWorkingDays: int, users: seq<UserPresence>)

  function PresenceRows(staff: seq<StaffRecord>, q: YearMonth, working: int): (r: seq<PresenceRow>)
    ensures |r| == |staff|
    ensures forall i :: 0 <= i < |r| ==> r[i] == Presence(staff[i], q, working)
  {
    seq(|staff|, i requires 0 <= i < |staff| => Presence(staff[i], q, working))
  }

  /** The presence view of the staff on a PI's projects. */
  function PIUsersWithAttendance(pis: seq<PIRecord>, staff: seq<StaffRecord>, cal: seq<CalendarDay>,
                                 piUsername: string, month: Option<int>, year: Option<int>,
                                 today: YearMonth): (r: Result<PIAttendance>)
    ensures piUsername == "" ==> r == Err(InvalidInput)
    ensures r == Err(NotFound) <==> piUsername != "" && FindPI(pis, piUsername).None?
    ensures r.Ok? <==> piUsername != "" && FindPI(pis, piUsername).Some?
    ensures r.Ok? ==>
      var q := QueryMonth(month, year, today);
      && r.value.piUsername == piUsername
      && r.value.month == q
      && r.value.totalWorkingDays == MonthWorkingDays(q.year, q.month, cal)
      && (exists p :: p in pis && p.username == piUsername &&
            |r.value.users| == |StaffOn(staff, p.projects)| &&
            forall i :: 0 <= i < |r.value.users| ==>
              var member := StaffOn(staff, p.projects)[i];
              && r.value.users[i].row == Presence(member, q, r.value.totalWorkingDays)
              && (forall a :: a in r.value.users[i].attendances <==>
                    a in member.attendances && FirstDay(q) <= a.date <= LastDay(q)))
  {
    if piUsername == "" then Err(InvalidInput)
    else match FindPI(pis, piUsername)
      case None => Err(NotFound)
      case Some(p) =>
        var q := QueryMonth(month, year, today);
        var working := MonthWorkingDays(q.year, q.month, cal);
        var on := StaffOn(staff, p.projects);
        Ok(PIAttendance(piUsername, q, working,
          seq(|on|, i requires 0 <= i < |on| =>
            UserPresence(Presence(on[i], q, working), RowsBetween(on[i].attendances, FirstDay(q), LastDay(q))))))
  }

  /** The presence report of a PI's staff: the figures of the view without the rows. */
  function DownloadPIReport(pis: seq<PIRecord>, staff: seq<StaffRecord>, cal: seq<CalendarDay>,
                            piUsername: string, month: Option<int>, year: Option<int>,
                            today: YearMonth): (r: Result<seq<PresenceRow>>)
    ensures r.Err? <==> FindPI(pis, piUsername).None?
    ensures r.Err? ==> r.error == NotFound
  {
    match FindPI(pis, piUsername)
    case None => Err(NotFound)
    case Some(p) =>
      var q := QueryMonth(month, year, today);
      Ok(PresenceRows(StaffOn(staff, p.projects), q, MonthWorkingDays(q.year, q.month, cal)))
  }

  /** For a named PI the report and the view agree row for row. */
  lemma ReportMatchesView(pis: seq<PIRecord>, staff: seq<StaffRecord>, cal: seq<CalendarDay>,
                          piUsername: string, month: Option<int>, year: Option<int>, today: YearMonth)
    requires piUsername != ""
    ensures var v := PIUsersWithAttendance(pis, staff, cal, piUsername, month, year, today);
            var rep := DownloadPIReport(pis, staff, cal, piUsername, month, year, today);
            && (v.Ok? <==> rep.Ok?)
            && (v.Ok? ==>
                  && |rep.value| == |v.value.users|
                  && forall i :: 0 <= i < |rep.value| ==> rep.value[i] == v.value.users[i].row)
  {
  }
}

=== FILE: outcomes.dfy ===
/** Optional values and the error outcomes the service reports.

    The controllers answer a failed request with an HTTP status; the model keeps
    only the kind of failure (400 invalid input, 401 unauthorized, 404 not found). */
module Outcomes {

  /** A value that may be absent (`undefined`/`null` in the service). */
  datatype Option<+T> = None | Some(value: T) {

    /** Returns the value, or `default` when absent. */
    function GetOr(default: T): T {
      match this
      case Some(v) => v
      case None => default
    }
  }

  /** The failure kinds the core surfaces. */
  datatype Error = InvalidInput | Unauthorized | NotFound

  /** The outcome of a request handler: a value or one failure kind. */
  datatype Result<+T> = Ok(value: T) | Err(error: Error)
}

=== FILE: pi_controller.dfy ===
/** The PI side: the two attendance views of a PI's project staff, the PI's
    pending HR requests, and the submission of a month's snapshot to HR. */
module PiController {
  import opened Outcomes
  import opened Calendar
  import opened Attendance
  import opened Statistics
  import opened Roster
  import opened FieldTrips
  import opened Workflow

  /** The caller as the access token carries it. */
  datatype AuthUser = AuthUser(username: string, projects: Option<seq<ProjectCode>>, projectCode: Option<ProjectCode>)

  /** How a view turns the monthly counts into a total. */
  datatype Policy =
    | SumOfCounts     // full + half + not checked out (the integer total)
    | HalfWeighted    // full + 0.5 * half + 0.5 * not checked out

  function Total(policy: Policy, st: MonthlyStatistics): real {
    match policy
    case SumOfCounts => IntegerTotal(st) as real
    case HalfWeighted => HalfWeightedTotal(st)
  }

  /** One staff member in a PI's view. */
  datatype UserSummary = UserSummary(
    employeeNumber: EmployeeId,
    username: string,
    empClass: string,
    projects: set<ProjectCode>,
    hasActiveFieldTrip: bool,
    stats: MonthlyStatistics,
    totalDays: real,
    attendances: seq<Attendance>)

  datatype View = View(month: YearMonth, users: seq<UserSummary>)

  /** The user's attendance rows dated within the month. */
  function MonthRows(s: StaffRecord, q: YearMonth): seq<Attendance> {
    RowsBetween(s.attendances, FirstDay(q), LastDay(q))
  }

  /** Whether the employee holds an active trip, whatever its dates. */
  function HasActiveFieldTrip(table: TripTable, e: EmployeeId): (b: bool)
    ensures b <==> exists k :: 0 <= k < |table| && table[k].employee == e && table[k].isActive
  {
    var keys := Select(table, ActiveTripOf(e));
    if |keys| > 0 then
      assert table[keys[0]].employee == e && table[keys[0]].isActive;
      true
    else
      assert forall k :: 0 <= k < |table| ==> !ActiveTripOf(e)(table[k]);
      false
  }

  function Summary(s: StaffRecord, codes: seq<ProjectCode>, table: TripTable, q: YearMonth, policy: Policy): (v: UserSummary)
    ensures v.employeeNumber == s.user.employeeNumber && v.username == s.user.username && v.empClass == s.user.empClass
    ensures forall c :: c in v.projects <==> c in s.user.projects && c in codes
    ensures v.hasActiveFieldTrip <==>
      exists k :: 0 <= k < |table| && table[k].employee == s.user.employeeNumber && table[k].isActive
    ensures forall a :: a in v.attendances <==> a in s.attendances && FirstDay(q) <= a.date <= LastDay(q)
    ensures v.attendances == RowsBetween(s.attendances, FirstDay(q), LastDay(q))
    ensures v.stats == Summarize(v.attendances) && v.totalDays == Total(policy, v.stats)
    ensures v.stats.fullDays + v.stats.halfDays <= |v.attendances| && v.stats.notCheckedOut <= |v.attendances|
  {
    var rows := MonthRows(s, q);
    var st := Summarize(rows);
    var projects := set c | c in s.user.projects && c in codes;
    UserSummary(s.user.employeeNumber, s.user.username, s.user.empClass, projects,
      HasActiveFieldTrip(table, s.user.employeeNumber), st, Total(policy, st), rows)
  }

  function Summaries(staff: seq<StaffRecord>, codes: seq<ProjectCode>, table: TripTable, q: YearMonth, policy: Policy): (r: seq<UserSummary>)
    ensures |r| == |StaffOn(staff, codes)|
    ensures forall i :: 0 <= i < |r| ==> r[i] == Summary(StaffOn(staff, codes)[i], codes, table, q, policy)
  {
    var on := StaffOn(staff, codes);
    seq(|on|, i requires 0 <= i < |on| => Summary(on[i], codes, table, q, policy))
  }

  /** The view of staff on the given projects, as the single-sign-on route serves
      it: the caller's name and project list come from the request body. */
  function UsersAttendanceSSO(username: string, projectCodes: Option<seq<ProjectCode>>,
                              month: Option<int>, year: Option<int>, today: YearMonth,
                              staff: seq<StaffRecord>, table: TripTable): (r: Result<View>)
    ensures r.Err? <==> username == "" || projectCodes.None?
    ensures r.Err? ==> r.error == InvalidInput
    ensures r.Ok? ==>
      && r.value.month == QueryMonth(month, year, today)
      && (forall u :: u in r.value.users ==> u.totalDays == IntegerTotal(u.stats) as real)
    ensures r.Ok? ==> |r.value.users| == |StaffOn(staff, projectCodes.value)|
    ensures r.Ok? ==> forall i :: 0 <= i < |r.value.users| ==>
      r.value.users[i] == Summary(StaffOn(staff, projectCodes.value)[i], projectCodes.value, table, r.value.month, SumOfCounts)
  {
    if username == "" || projectCodes.None? then Err(InvalidInput)
    else
      var q := QueryMonth(month, year, today);
      Ok(View(q, Summaries(staff, projectCodes.value, table, q, SumOfCounts)))
  }

  /** The projects the token view filters on: the token's project list, or else
      a one-element list of its project code. */
  function ViewProjects(u: AuthUser): (codes: seq<ProjectCode>)
    ensures u.projects.Some? ==> codes == u.projects.value
    ensures u.projects.None? && u.projectCode.Some? ==> codes == [u.projectCode.value]
    ensures u.projects.None? && u.projectCode.None? ==> codes == []
  {
    if u.projects.Some? then u.projects.value
    else if u.projectCode.Some? then [u.projectCode.value]
    else []
  }

  /** The view of the caller's project staff, as the token route serves it. */
  function UsersAttendance(auth: Option<AuthUser>, month: Option<int>, year: Option<int>, today: YearMonth,
                           staff: seq<StaffRecord>, table: TripTable): (r: Result<View>)
    ensures r.Err? <==> auth.None?
    ensures r.Err? ==> r.error == Unauthorized
    ensures r.Ok? ==>
      && r.value.month == QueryMonth(month, year, today)
      && (forall u :: u in r.value.users ==> u.totalDays == HalfWeightedTotal(u.stats))
    ensures r.Ok? ==> |r.value.users| == |StaffOn(staff, ViewProjects(auth.value))|
    ensures r.Ok? ==> forall i :: 0 <= i < |r.value.users| ==>
      r.value.users[i] == Summary(StaffOn(staff, ViewProjects(auth.value))[i], ViewProjects(auth.value), table, r.value.month, HalfWeighted)
  {
    if auth.None? then Err(Unauthorized)
    else
      var q := QueryMonth(month, year, today);
      Ok(View(q, Summaries(staff, ViewProjects(auth.value), table, q, HalfWeighted)))
  }

  /** The two views list the same people with the same counts; only the total
      differs, and the half-weighted total never exceeds the other, equalling it
      exactly when no row is a half day or lacks a checkout. */
  lemma ViewsAgreeButForTotal(u: AuthUser, month: Option<int>, year: Option<int>, today: YearMonth,
                              staff: seq<StaffRecord>, table: TripTable)
    requires u.username != "" && u.projects.Some?
    ensures var sso := UsersAttendanceSSO(u.username, u.projects, month, year, today, staff, table).value;
            var tok := UsersAttendance(Some(u), month, year, today, staff, table).value;
            && sso.month == tok.month
            && |sso.users| == |tok.users|
            && forall i :: 0 <= i < |sso.users| ==>
                 && sso.users[i] == tok.users[i].(totalDays := sso.users[i].totalDays)
                 && tok.users[i].totalDays <= sso.users[i].totalDays
                 && (tok.users[i].totalDays == sso.users[i].totalDays <==>
                       sso.users[i].stats.halfDays + sso.users[i].stats.notCheckedOut == 0)
  {
  }

  /** The projects a submission covers: the token's list, or else its project
      code when that is non-empty. */
  function SubmitProjects(u: AuthUser): (codes: seq<ProjectCode>)
    ensures u.projects.Some? ==> codes == u.projects.value
    ensures u.projects.None? ==> (|codes| == 0 <==> u.projectCode.None? || u.projectCode == Some(""))
    ensures u.projects.None? && u.projectCode.Some? && u.projectCode.value != "" ==> codes == [u.projectCode.value]
  {
    if u.projects.Some? then u.projects.value
    else if u.projectCode.Some? && u.projectCode.value != "" then [u.projectCode.value]
    else []
  }

  /** The month's snapshot for HR: one entry per staff member on the projects,
      with the month total full + half + not-checked-out (`IntegerTotal`). */
  function Snapshot(staff: seq<StaffRecord>, codes: seq<ProjectCode>, q: YearMonth): (r: seq<UserStat>)
    ensures |r| == |StaffOn(staff, codes)|
    ensures forall i :: 0 <= i < |r| ==>
      && r[i].username == StaffOn(staff, codes)[i].user.username
      && r[i].totalDays == IntegerTotal(Summarize(MonthRows(StaffOn(staff, codes)[i], q)))
  {
    var on := StaffOn(staff, codes);
    seq(|on|, i requires 0 <= i < |on| =>
      UserStat(on[i].user.username, IntegerTotal(Summarize(MonthRows(on[i], q)))))
  }

  /** What HR receives is what the single-sign-on view shows for the same
      projects and month: the same people with the same totals; the model lists
      both in roster order. */
  lemma SnapshotMatchesView(username: string, codes: seq<ProjectCode>, q: YearMonth,
                            staff: seq<StaffRecord>, table: TripTable)
    requires username != ""
    ensures var v := UsersAttendanceSSO(username, Some(codes), Some(q.month), Some(q.year), q, staff, table).value;
            var snap := Snapshot(staff, codes, q);
            && |snap| == |v.users|
            && forall i :: 0 <= i < |snap| ==>
                 snap[i].username == v.users[i].username && snap[i].totalDays as real == v.users[i].totalDays
  {
  }

  /** Answers HR's request for the period: stores the snapshot under the caller's
      name and deletes the request. Refused for a caller without a name or
      projects, and when HR has not asked for this period. */
  function SubmitDataToHR(s: State, auth: Option<AuthUser>, period: Period, q: YearMonth,
                          staff: seq<StaffRecord>): (r: Result<State>)
    ensures r == Err(Unauthorized) <==>
      auth.None? || auth.value.username == "" || |SubmitProjects(auth.value)| == 0
    ensures r == Err(NotFound) <==>
      && auth.Some? && auth.value.username != "" && |SubmitProjects(auth.value)| > 0
      && !HasRequest(s, auth.value.username, Key(period))
    ensures r.Err? ==> r.error in {Unauthorized, NotFound}
    ensures r.Ok? ==>
      var pi := auth.value.username;
      var key := Key(period);
      && HasRequest(s, pi, key)
      && HasSubmission(r.value, pi, key)
      && r.value.submitted[pi][key] == Snapshot(staff, SubmitProjects(auth.value), q)
      && !HasRequest(r.value, pi, key)
      && (forall p, k :: (p, k) != (pi, key) ==>
            && (HasRequest(r.value, p, k) <==> HasRequest(s, p, k))
            && (HasRequest(s, p, k) ==> r.value.requests[p][k] == s.requests[p][k])
            && (HasSubmission(r.value, p, k) <==> HasSubmission(s, p, k))
            && (HasSubmission(s, p, k) ==> r.value.submitted[p][k] == s.submitted[p][k]))
  {
    if auth.None? || auth.value.username == "" || |SubmitProjects(auth.value)| == 0 then Err(Unauthorized)
    else if !HasRequest(s, auth.value.username, Key(period)) then Err(NotFound)
    else
      Ok(Consume(s, auth.value.username, Key(period),
                 Snapshot(staff, SubmitProjects(auth.value), q)))
  }

  /** The caller's open requests, one notification per request key. */
  function Notifications(s: State, auth: Option<AuthUser>): (r: Result<map<PeriodKey, Notification>>)
    ensures r.Err? <==> auth.None? || auth.value.username == ""
    ensures r.Err? ==> r.error == Unauthorized
    ensures r.Ok? ==>
      && (forall k :: k in r.value <==> HasRequest(s, auth.value.username, k))
      && (forall k :: k in r.value ==> r.value[k] == ParseKey(k))
      && (forall p: Period :: Plain(p) && HasRequest(s, auth.value.username, Key(p)) ==>
            r.value[Key(p)] == Notification(p.month, Some(p.year)))
  {
    if auth.None? || auth.value.username == "" then Err(Unauthorized)
    else
      var pi := auth.value.username;
      var n := if pi in s.requests then map k | k in s.requests[pi] :: ParseKey(k) else map[];
      assert forall p: Period :: Plain(p) ==> ParseKey(Key(p)) == Notification(p.month, Some(p.year)) by {
        forall p: Period | Plain(p) ensures ParseKey(Key(p)) == Notification(p.month, Some(p.year)) {
          ParseKeyRoundTrip(p);
        }
      }
      Ok(n)
  }
}

=== FILE: roster.dfy ===
/** The people the core reads but does not own: users with their projects, PIs
    with their projects, and the users-with-attendance join the views query. */
module Roster {
  import opened Outcomes
  import opened Attendance

  type ProjectCode = string

  datatype User = User(employeeNumber: EmployeeId, username: string, empClass: string, projects: set<ProjectCode>)

  /** A principal investigator and the codes of their projects. */
  datatype PIRecord = PIRecord(username: string, projects: seq<ProjectCode>)

  /** A user together with their attendance rows, as the store's join returns it. */
  datatype StaffRecord = StaffRecord(user: User, attendances: seq<Attendance>)

  /** The user works on at least one of the given projects. */
  predicate OnProjects(u: User, codes: seq<ProjectCode>) {
    exists c :: c in codes && c in u.projects
  }

  /** The first user satisfying `p` (`findUnique` on a unique column). */
  function FindUser(users: seq<User>, p: User -> bool): (r: Option<User>)
    ensures r.Some? ==> r.value in users && p(r.value)
    ensures r.None? ==> forall u :: u in users ==> !p(u)
    decreases |users|
  {
    if |users| == 0 then None
    else if p(users[0]) then Some(users[0])
    else FindUser(users[1..], p)
  }

  /** The first PI with the given username. */
  function FindPI(pis: seq<PIRecord>, username: string): (r: Option<PIRecord>)
    ensures r.Some? ==> r.value in pis && r.value.username == username
    ensures r.None? ==> forall p :: p in pis ==> p.username != username
    decreases |pis|
  {
    if |pis| == 0 then None
    else if pis[0].username == username then Some(pis[0])
    else FindPI(pis[1..], username)
  }

  /** The staff on any of the given projects, in roster order. */
  function StaffOn(staff: seq<StaffRecord>, codes: seq<ProjectCode>): (r: seq<StaffRecord>)
    ensures |r| <= |staff|
    decreases |staff|
  {
    if |staff| == 0 then []
    else
      var rest := StaffOn(staff[1..], codes);
      if OnProjects(staff[0].user, codes) then [staff[0]] + rest else rest
  }

  /** The filter keeps every record on the projects as often as it occurs, and
      no other. */
  lemma {:induction false} StaffOnCounts(staff: seq<StaffRecord>, codes: seq<ProjectCode>)
    ensures forall s :: multiset(StaffOn(staff, codes))[s]
                        == if OnProjects(s.user, codes) then multiset(staff)[s] else 0
    ensures forall s :: s in StaffOn(staff, codes) <==> s in staff && OnProjects(s.user, codes)
    decreases |staff|
  {
    if |staff| > 0 {
      assert staff == [staff[0]] + staff[1..];
      StaffOnCounts(staff[1..], codes);
      assert multiset(staff) == multiset{staff[0]} + multiset(staff[1..]);
    }
    forall s ensures s in StaffOn(staff, codes) <==> s in staff && OnProjects(s.user, codes) {
      assert s in StaffOn(staff, codes) <==> s in multiset(StaffOn(staff, codes));
      assert s in staff <==> s in multiset(staff);
    }
  }

  /** The filter keeps roster order: filtering a concatenation is the
      concatenation of the filtered parts, and a single record is kept exactly
      when it is on the projects. */
  lemma {:induction false} StaffOnAppend(a: seq<StaffRecord>, b: seq<StaffRecord>, codes: seq<ProjectCode>)
    ensures StaffOn(a + b, codes) == StaffOn(a, codes) + StaffOn(b, codes)
    ensures |a| == 1 ==> StaffOn(a, codes) == (if OnProjects(a[0].user, codes) then a else [])
    decreases |a|
  {
    if |a| == 0 {
      assert a + b == b;
    } else {
      var t := a[1..];
      assert (a + b)[0] == a[0];
      assert (a + b)[1..] == t + b;
      StaffOnAppend(t, b, codes);
      if |a| == 1 {
        assert t == [];
      }
    }
  }


}

=== FILE: statistics.dfy ===
/** The per-user monthly figures the PI views, the PI submission and the HR
    reports derive from attendance rows. */
module Statistics {
  import opened Outcomes
  import opened Dates
  import opened Attendance

  predicate IsFullDay(a: Attendance) { a.kind == Some(FULL_DAY) }
  predicate IsHalfDay(a: Attendance) { a.kind == Some(HALF_DAY) }
  predicate IsNotCheckedOut(a: Attendance) { a.checkout.None? }

  /** `rows.filter(p).length`. */
  function CountWhere(rows: seq<Attendance>, p: Attendance -> bool): (n: nat)
    ensures n <= |rows|
    decreases |rows|
  {
    if |rows| == 0 then 0
    else CountWhere(rows[..|rows| - 1], p) + (if p(rows[|rows| - 1]) then 1 else 0)
  }

  /** The counts a view reports for one user. */
  datatype MonthlyStatistics = MonthlyStatistics(fullDays: nat, halfDays: nat, notCheckedOut: nat)

  /** Full days, half days and rows without a check-out. */
  function Summarize(rows: seq<Attendance>): (s: MonthlyStatistics)
    ensures s.fullDays + s.halfDays <= |rows|
    ensures s.notCheckedOut <= |rows|
  {
    DisjointCounts(rows, IsFullDay, IsHalfDay);
    MonthlyStatistics(CountWhere(rows, IsFullDay), CountWhere(rows, IsHalfDay),
                      CountWhere(rows, IsNotCheckedOut))
  }

  /** The submission and SSO-view policy: every class counts one. */
  function IntegerTotal(s: MonthlyStatistics): (n: nat)
    ensures n == 0 <==> s == MonthlyStatistics(0, 0, 0)
    ensures n >= s.fullDays
  {
    s.fullDays + s.halfDays + s.notCheckedOut
  }

  /** The token-view policy: half days and open rows count one half. */
  function HalfWeightedTotal(s: MonthlyStatistics): (t: real)
    ensures 0.0 <= t <= IntegerTotal(s) as real
    ensures IntegerTotal(s) as real - t == 0.5 * (s.halfDays + s.notCheckedOut) as real
  {
    s.fullDays as real + 0.5 * s.halfDays as real + 0.5 * s.notCheckedOut as real
  }

  /** Counts of two predicates no row satisfies together add up to at most the rows. */
  lemma {:induction false} DisjointCounts(rows: seq<Attendance>, p: Attendance -> bool, q: Attendance -> bool)
    requires forall a :: !(p(a) && q(a))
    ensures CountWhere(rows, p) + CountWhere(rows, q) <= |rows|
    decreases |rows|
  {
    if |rows| > 0 {
      DisjointCounts(rows[..|rows| - 1], p, q);
    }
  }

  /** Counting distributes over concatenation. */
  lemma {:induction false} CountAppend(a: seq<Attendance>, b: seq<Attendance>, p: Attendance -> bool)
    ensures CountWhere(a + b, p) == CountWhere(a, p) + CountWhere(b, p)
    decreases |b|
  {
    if |b| > 0 {
      assert (a + b)[..|a + b| - 1] == a + b[..|b| - 1];
      CountAppend(a, b[..|b| - 1], p);
    } else {
      assert a + b == a;
    }
  }

  /** Both policies: zero on no rows, the half-weighted never above the integer one,
      the integer one at most twice the rows. */
  lemma PolicyBounds(rows: seq<Attendance>)
    ensures rows == [] ==> IntegerTotal(Summarize(rows)) == 0 && HalfWeightedTotal(Summarize(rows)) == 0.0
    ensures 0.0 <= HalfWeightedTotal(Summarize(rows)) <= IntegerTotal(Summarize(rows)) as real
    ensures IntegerTotal(Summarize(rows)) <= 2 * |rows|
  {
    var s := Summarize(rows);
    var f, h, n := s.fullDays as real, s.halfDays as real, s.notCheckedOut as real;
    assert HalfWeightedTotal(s) == f + 0.5 * h + 0.5 * n;
    assert IntegerTotal(s) as real == f + h + n;
  }

  /** Adding rows never lowers either total. */
  lemma TotalsMonotone(rows: seq<Attendance>, more: seq<Attendance>)
    ensures IntegerTotal(Summarize(rows)) <= IntegerTotal(Summarize(rows + more))
    ensures HalfWeightedTotal(Summarize(rows)) <= HalfWeightedTotal(Summarize(rows + more))
  {
    CountAppend(rows, more, IsFullDay);
    CountAppend(rows, more, IsHalfDay);
    CountAppend(rows, more, IsNotCheckedOut);
  }

  /** Rows the end-of-day job completed (FULL_DAY, no check-out) are all full
      days, none half, and all without a check-out. */
  lemma {:induction false} AutoCompletedCounts(rows: seq<Attendance>)
    requires forall a :: a in rows ==> IsFullDay(a) && IsNotCheckedOut(a)
    ensures Summarize(rows) == MonthlyStatistics(|rows|, 0, |rows|)
    decreases |rows|
  {
    if |rows| > 0 {
      var p := rows[..|rows| - 1];
      assert forall a :: a in p ==> a in rows;
      assert rows[|rows| - 1] in rows;
      AutoCompletedCounts(p);
    }
  }

  /** Such a row counts twice under the integer policy, so the 2 x rows bound is
      reached, and one and a half under the half-weighted one. */
  lemma AutoCompletedCountTwice(rows: seq<Attendance>)
    requires forall a :: a in rows ==> IsFullDay(a) && IsNotCheckedOut(a)
    ensures IntegerTotal(Summarize(rows)) == 2 * |rows|
    ensures HalfWeightedTotal(Summarize(rows)) == 1.5 * |rows| as real
  {
    AutoCompletedCounts(rows);
    var n := |rows| as real;
    assert HalfWeightedTotal(Summarize(rows)) == n + 0.5 * 0.0 + 0.5 * n;
  }

  /** The distinct calendar dates among the rows. */
  function DatesOf(rows: seq<Attendance>): set<Day> {
    set a | a in rows :: a.date
  }

  /** Present days: the number of distinct dates, whatever the duplicates. */
  function PresentDays(rows: seq<Attendance>): (n: nat)
    ensures n <= |rows|
  {
    DatesBound(rows);
    |DatesOf(rows)|
  }

  lemma {:induction false} DatesBound(rows: seq<Attendance>)
    ensures |DatesOf(rows)| <= |rows|
    decreases |rows|
  {
    if |rows| > 0 {
      var p := rows[..|rows| - 1];
      assert rows == p + [rows[|rows| - 1]];
      assert DatesOf(rows) == DatesOf(p) + {rows[|rows| - 1].date};
      DatesBound(p);
    }
  }

  /** A row for an already-present date does not raise the count; a row for a new
      date raises it by one. */
  lemma PresentDaysStep(rows: seq<Attendance>, a: Attendance)
    ensures (exists b :: b in rows && b.date == a.date) ==> PresentDays(rows + [a]) == PresentDays(rows)
    ensures (forall b :: b in rows ==> b.date != a.date) ==> PresentDays(rows + [a]) == PresentDays(rows) + 1
  {
    var d, d2 := DatesOf(rows), DatesOf(rows + [a]);
    assert d2 == d + {a.date} by {
      forall x | x in d2 ensures x in d + {a.date} {
        var b :| b in rows + [a] && b.date == x;
        if b != a { assert b in rows; }
      }
      forall x | x in d + {a.date} ensures x in d2 {
        if x == a.date { assert a in rows + [a]; }
        else { var b :| b in rows && b.date == x; assert b in rows + [a]; }
      }
    }
    if a.date in d {
      assert d + {a.date} == d;
    } else {
      assert |d + {a.date}| == |d| + 1;
    }
  }
}

=== FILE: text.dfy ===
/** String helpers the service gets from JavaScript: `String.prototype.split`
    with a one-character separator, and lexicographic order on code points
    (the store's collation is not modelled). */
module Text {

  /** `s.split(sep)`: the pieces of `s` between occurrences of `sep`.
      Like JavaScript, an empty string splits into one empty piece. */
  function Split(s: string, sep: char): (pieces: seq<string>)
    ensures |pieces| >= 1
    decreases |s|
  {
    if |s| == 0 then [""]
    else
      var rest := Split(s[1..], sep);
      if s[0] == sep then [""] + rest
      else [[s[0]] + rest[0]] + rest[1..]
  }

  /** The pieces joined back with `sep` in between (`pieces.join(sep)`). */
  function Join(pieces: seq<string>, sep: char): string
    requires |pieces| >= 1
    decreases |pieces|
  {
    if |pieces| == 1 then pieces[0]
    else pieces[0] + [sep] + Join(pieces[1..], sep)
  }

  /** A string without the separator splits into itself alone. */
  lemma {:induction false} SplitWithoutSeparator(s: string, sep: char)
    requires sep !in s
    ensures Split(s, sep) == [s]
    decreases |s|
  {
    if |s| > 0 {
      assert sep !in s[1..] by {
        forall k | 0 <= k < |s[1..]| ensures s[1..][k] != sep {
          assert s[1..][k] == s[k + 1];
        }
      }
      SplitWithoutSeparator(s[1..], sep);
      assert [s[0]] + s[1..] == s;
    }
  }

  /** Splitting `a + sep + b` recovers `a` and `b` when neither holds the separator. */
  lemma {:induction false} SplitPair(a: string, b: string, sep: char)
    requires sep !in a && sep !in b
    ensures Split(a + [sep] + b, sep) == [a, b]
    decreases |a|
  {
    var s := a + [sep] + b;
    if |a| == 0 {
      assert s == [sep] + b;
      assert s[1..] == b;
      SplitWithoutSeparator(b, sep);
    } else {
      assert s[1..] == a[1..] + [sep] + b;
      assert sep !in a[1..] by {
        forall k | 0 <= k < |a[1..]| ensures a[1..][k] != sep {
          assert a[1..][k] == a[k + 1];
        }
      }
      SplitPair(a[1..], b, sep);
      assert [a[0]] + a[1..] == a;
    }
  }

  /** Splitting `a + sep + b + sep + c` gives the three parts when none holds the
      separator. */
  lemma {:induction false} SplitTriple(a: string, b: string, c: string, sep: char)
    requires sep !in a && sep !in b && sep !in c
    ensures Split(a + [sep] + b + [sep] + c, sep) == [a, b, c]
    decreases |a|
  {
    var s := a + [sep] + b + [sep] + c;
    if |a| == 0 {
      assert s[0] == sep;
      assert s[1..] == b + [sep] + c;
      SplitPair(b, c, sep);
    } else {
      assert s[0] == a[0];
      assert s[1..] == a[1..] + [sep] + b + [sep] + c;
      assert sep !in a[1..] by {
        forall k | 0 <= k < |a[1..]| ensures a[1..][k] != sep {
          assert a[1..][k] == a[k + 1];
        }
      }
      SplitTriple(a[1..], b, c, sep);
      assert [a[0]] + a[1..] == a;
    }
  }

  /** Joining the pieces of a split gives back the original string. */
  lemma {:induction false} JoinSplit(s: string, sep: char)
    ensures Join(Split(s, sep), sep) == s
    decreases |s|
  {
    if |s| > 0 {
      var rest := Split(s[1..], sep);
      JoinSplit(s[1..], sep);
      if s[0] == sep {
        assert Split(s, sep) == [""] + rest;
        assert ([""] + rest)[1..] == rest;
        assert s == [sep] + s[1..];
      } else {
        var pieces := Split(s, sep);
        assert pieces == [[s[0]] + rest[0]] + rest[1..];
        if |rest| == 1 {
          assert Join(rest, sep) == rest[0];
          assert s == [s[0]] + s[1..];
        } else {
          assert pieces[1..] == rest[1..];
          assert Join(rest, sep) == rest[0] + [sep] + Join(rest[1..], sep);
          assert s == [s[0]] + s[1..];
        }
      }
    }
  }

  /** Lexicographic order on code points; the store's collation is not modelled. */
  predicate TextLe(a: string, b: string)
    decreases |a|
  {
    |a| == 0 || (|b| > 0 && (a[0] < b[0] || (a[0] == b[0] && TextLe(a[1..], b[1..]))))
  }

  /** Any two strings are comparable. */
  lemma {:induction false} TextLeTotal(a: string, b: string)
    ensures TextLe(a, b) || TextLe(b, a)
    decreases |a|
  {
    if |a| > 0 && |b| > 0 && a[0] == b[0] {
      TextLeTotal(a[1..], b[1..]);
    }
  }

  /** The order is transitive. */
  lemma {:induction false} TextLeTransitive(a: string, b: string, c: string)
    requires TextLe(a, b) && TextLe(b, c)
    ensures TextLe(a, c)
    decreases |a|
  {
    if |a| > 0 && a[0] == b[0] && b[0] == c[0] {
      TextLeTransitive(a[1..], b[1..], c[1..]);
    }
  }
}

=== FILE: workflow.dfy ===
/** The process-wide HR/PI workflow state: per PI and reporting period, HR's
    outstanding data request and the PI's submitted snapshot. */
module Workflow {
  import opened Outcomes
  import opened Text

  type PI = string
  type PeriodKey = string

  /** A reporting period as received: month and year as text. The empty string
      stands for a missing (falsy) value. */
  datatype Period = Period(month: string, year: string)

  /** `${month}-${year}`. */
  function Key(p: Period): PeriodKey {
    p.month + "-" + p.year
  }

  predicate Given(p: Period) {
    p.month != "" && p.year != ""
  }

  /** Neither part contains the key's separator. */
  predicate Plain(p: Period) {
    '-' !in p.month && '-' !in p.year
  }

  datatype RequestInfo = RequestInfo(requestedAt: int)

  /** One user's entry of a submitted snapshot. */
  datatype UserStat = UserStat(username: string, totalDays: int)

  /** `hrRequests` and `submittedData`. A submission is stored as a list. */
  datatype State = State(
    requests: map<PI, map<PeriodKey, RequestInfo>>,
    submitted: map<PI, map<PeriodKey, seq<UserStat>>>)

  /** The state at process start. */
  const Initial: State := State(map[], map[])

  predicate HasRequest(s: State, pi: PI, key: PeriodKey) {
    pi in s.requests && key in s.requests[pi]
  }

  predicate HasSubmission(s: State, pi: PI, key: PeriodKey) {
    pi in s.submitted && key in s.submitted[pi]
  }

  /** Records a request for `key` for each listed PI, overwriting an earlier one. */
  function Register(s: State, pis: seq<PI>, key: PeriodKey, info: RequestInfo): (r: State)
    ensures r.submitted == s.submitted
    ensures forall pi, k :: HasRequest(r, pi, k) <==> HasRequest(s, pi, k) || (pi in pis && k == key)
    ensures forall pi :: pi in pis ==> HasRequest(r, pi, key) && r.requests[pi][key] == info
    ensures forall pi, k :: HasRequest(s, pi, k) && !(pi in pis && k == key) ==>
      HasRequest(r, pi, k) && r.requests[pi][k] == s.requests[pi][k]
    decreases |pis|
  {
    if |pis| == 0 then s
    else
      var pi := pis[|pis| - 1];
      var t := Register(s, pis[..|pis| - 1], key, info);
      var entries := if pi in t.requests then t.requests[pi] else map[];
      assert forall p :: p in pis <==> p in pis[..|pis| - 1] || p == pi;
      t.(requests := t.requests[pi := entries[key := info]])
  }

  /** Stores the snapshot for (pi, key) and deletes the request it answers. */
  function Consume(s: State, pi: PI, key: PeriodKey, snapshot: seq<UserStat>): (r: State)
    ensures HasSubmission(r, pi, key) && r.submitted[pi][key] == snapshot
    ensures !HasRequest(r, pi, key)
    ensures forall p, k :: (p, k) != (pi, key) ==>
      && (HasRequest(r, p, k) <==> HasRequest(s, p, k))
      && (HasRequest(s, p, k) ==> r.requests[p][k] == s.requests[p][k])
      && (HasSubmission(r, p, k) <==> HasSubmission(s, p, k))
      && (HasSubmission(s, p, k) ==> r.submitted[p][k] == s.submitted[p][k])
  {
    var done := if pi in s.submitted then s.submitted[pi] else map[];
    var requests := if pi in s.requests then s.requests[pi := s.requests[pi] - {key}] else s.requests;
    State(requests, s.submitted[pi := done[key := snapshot]])
  }

  /** The status HR sees for one PI and period. */
  datatype Status = Complete | Pending | Requested | NoStatus

  /** A stored submission wins over a request: non-empty is `complete`, empty is
      `pending`; a request alone is `requested`; otherwise `none`. */
  function StatusOf(s: State, pi: PI, key: PeriodKey): (st: Status)
    ensures st == Complete <==> HasSubmission(s, pi, key) && |s.submitted[pi][key]| > 0
    ensures st == Pending <==> HasSubmission(s, pi, key) && |s.submitted[pi][key]| == 0
    ensures st == Requested <==> !HasSubmission(s, pi, key) && HasRequest(s, pi, key)
    ensures st == NoStatus <==> !HasSubmission(s, pi, key) && !HasRequest(s, pi, key)
  {
    if HasSubmission(s, pi, key) then
      (if |s.submitted[pi][key]| > 0 then Complete else Pending)
    else if HasRequest(s, pi, key) then Requested
    else NoStatus
  }

  /** What a notification shows: the first two pieces of the key split on '-'
      (`const [month, year] = key.split('-')`); the year is absent for a key
      without '-'. */
  datatype Notification = Notification(month: string, year: Option<string>)

  function ParseKey(key: PeriodKey): (n: Notification)
    ensures '-' !in key ==> n == Notification(key, None)
  {
    var pieces := Split(key, '-');
    assert '-' !in key ==> pieces == [key] by {
      if '-' !in key { SplitWithoutSeparator(key, '-'); }
    }
    Notification(pieces[0], if |pieces| >= 2 then Some(pieces[1]) else None)
  }

  /** Splitting a key recovers the period when neither part contains '-'. */
  lemma ParseKeyRoundTrip(p: Period)
    requires Plain(p)
    ensures ParseKey(Key(p)) == Notification(p.month, Some(p.year))
  {
    SplitPair(p.month, p.year, '-');
  }

  /** A part with a '-' shifts the pieces: "1-2" / "2024" reads back as month "1",
      year "2". */
  lemma ParseKeyNeedsPlainParts()
    ensures ParseKey(Key(Period("1-2", "2024"))) == Notification("1", Some("2"))
  {
    assert Key(Period("1-2", "2024")) == "1" + ['-'] + "2" + ['-'] + "2024";
    SplitTriple("1", "2", "2024", '-');
  }
}

=== FILE: workflow_run.dfy ===
/** The HR/PI exchange end to end: HR asks, the PI sees the request and answers
    once, HR sees the status and downloads what was sent. */
module WorkflowRun {
  import opened Outcomes
  import opened Text
  import opened Calendar
  import opened Roster
  import opened Workflow
  import opened HrController
  import opened PiController

  /** A PI may submit only what HR asked for: on a fresh state every authorised
      submission is refused, and HR's status view reports `NoStatus` for every
      listed PI. */
  lemma SubmitBeforeRequestFails(u: AuthUser, p: Period, q: YearMonth, staff: seq<StaffRecord>,
                                 pis: seq<PIRecord>)
    requires u.username != "" && |SubmitProjects(u)| > 0
    ensures SubmitDataToHR(Initial, Some(u), p, q, staff) == Err(NotFound)
    ensures SubmissionStatus(Initial, pis, p).Ok? <==> Given(p)
    ensures Given(p) ==>
      forall pi :: pi in SubmissionStatus(Initial, pis, p).value ==>
        SubmissionStatus(Initial, pis, p).value[pi] == NoStatus
    ensures SubmissionStatus(Initial, [PIRecord(u.username, [])], p) ==
      if Given(p) then Ok(map[u.username := NoStatus]) else Err(InvalidInput)
  {
    if Given(p) {
      var all := SubmissionStatus(Initial, pis, p).value;
      forall pi | pi in all
        ensures all[pi] == NoStatus
      {
        assert !HasSubmission(Initial, pi, Key(p)) && !HasRequest(Initial, pi, Key(p));
      }
      var r := SubmissionStatus(Initial, [PIRecord(u.username, [])], p).value;
      assert PIRecord(u.username, []) in [PIRecord(u.username, [])];
      assert r.Keys == {u.username};
      assert !HasSubmission(Initial, u.username, Key(p)) && !HasRequest(Initial, u.username, Key(p));
      assert r[u.username] == NoStatus;
      assert r == map[u.username := NoStatus];
    }
  }

  /** One round: after HR's request the PI is notified and the status reads
      `requested`; the PI's submission succeeds, clears the notification, turns
      the status into `complete` or `pending`, and a second submission is refused
      until HR asks again. */
  lemma {:induction false} RequestSubmitRound(s: State, pis: seq<PI>, u: AuthUser, p: Period, now: int,
                                              q: YearMonth, staff: seq<StaffRecord>)
    requires Given(p) && Plain(p) && u.username in pis
    requires u.username != "" && |SubmitProjects(u)| > 0
    requires !HasSubmission(s, u.username, Key(p))
    ensures var s1 := RequestDataFromPIs(s, Some(pis), p, now).value;
            var s2 := SubmitDataToHR(s1, Some(u), p, q, staff);
            var snap := Snapshot(staff, SubmitProjects(u), q);
            && StatusOf(s1, u.username, Key(p)) == Requested
            && Notifications(s1, Some(u)).value[Key(p)] == Notification(p.month, Some(p.year))
            && s2.Ok?
            && StatusOf(s2.value, u.username, Key(p)) == (if |snap| > 0 then Complete else Pending)
            && Key(p) !in Notifications(s2.value, Some(u)).value
            && SubmitDataToHR(s2.value, Some(u), p, q, staff) == Err(NotFound)
  {
    var s1 := RequestDataFromPIs(s, Some(pis), p, now).value;
    assert HasRequest(s1, u.username, Key(p));
  }

  /** A new request for a period already answered is recorded, but the status
      still reports the stored submission. */
  lemma ReRequestShowsSubmission(s: State, pis: seq<PI>, pi: PI, p: Period, now: int)
    requires Given(p) && pi in pis && HasSubmission(s, pi, Key(p))
    ensures var s1 := RequestDataFromPIs(s, Some(pis), p, now).value;
            && HasRequest(s1, pi, Key(p))
            && StatusOf(s1, pi, Key(p)) == StatusOf(s, pi, Key(p)) != Requested
  {
  }

  /** What HR downloads for a single PI is the PI's snapshot, line for line. */
  lemma {:induction false} ReportIsSnapshot(s: State, u: AuthUser, p: Period, q: YearMonth,
                                            staff: seq<StaffRecord>, cal: seq<CalendarDay>)
    requires u.username != "" && ',' !in u.username
    requires |SubmitProjects(u)| > 0 && HasRequest(s, u.username, Key(p))
    requires Given(p)
    ensures var s2 := SubmitDataToHR(s, Some(u), p, q, staff).value;
            var snap := Snapshot(staff, SubmitProjects(u), q);
            var rep := DownloadReport(s2, u.username, p, q, cal);
            && (rep == Err(NotFound) <==> snap == [])
            && (rep.Ok? ==>
                  && |rep.value| == |snap|
                  && forall i :: 0 <= i < |snap| ==>
                       rep.value[i].name == snap[i].username && rep.value[i].presentDays == snap[i].totalDays)
  {
    var s2 := SubmitDataToHR(s, Some(u), p, q, staff).value;
    SplitWithoutSeparator(u.username, ',');
    assert [u.username][..0] == [];
    assert Combined(s2, [u.username], Key(p)) == s2.submitted[u.username][Key(p)];
  }
}
